=== FILE: README.md ===
# Treasure-hunt game core, modelled in Dafny

This project models the logic at the centre of a multiplayer riddle game.

**The game server** keeps a registry of live room sessions. Its socket handlers change that registry:
- create and join a room;
- ready up and start the countdown;
- score a correct answer;
- record a finishing time;
- reset a game, leave, and disconnect.

Each handler is modelled as a pure transition. It takes the registry, the durable room and player tables, and the calling connection's id, and it returns the next state and the events sent. A connection is a socket id. The model keeps the code's two identity keys apart:
- `joinRoom` keys roster entries by the **user** id;
- `correctAnswer`, `completeGame` and `handlePlayerDisconnect` look entries up by the **connection** id.

**The client game context** covers:
- checking an answer against the riddle, after lower-casing and trimming both sides;
- moving through the fixed ten-riddle bank;
- the ready set that starts the countdown;
- entering and leaving a room, and resetting the game;
- the effects of the countdown and game-clock ticks, with runs of any operations and ticks.

**The `mm:ss` clock** appears three times, all modelled:
- the leaderboard's fastest times;
- the player's own finishing time, with `--:--` when there is none;
- the in-game timer.

**The results list** sorts players by completion time. A missing or zero time counts as 999 seconds, and the sort is stable.

Files:
- `wrappers.dfy`: `Option`.
- `text.dfy`: decimal rendering, `padStart`, `trim` with the ECMAScript white-space set, and ASCII `toLowerCase`.
- `clock.dfy`: the three clock renderings.
- `questions.dfy`: the riddle bank.
- `client_game.dfy`: the client game context.
- `ranking.dfy`: the results order.
- `server_state.dfy`: the server's state and events.
- `server.dfy`: the handlers.
- `server_props.dfy`: the registry invariant, and properties and walk-throughs of the handlers.

## Model

| member | source | states |
|---|---|---|
| Text.DecimalString | src/components/Game/Leaderboard.tsx:12 | `toString()` of a natural: the result is digits only, reads back as the number, has no leading zero, and has one digit exactly below 10 and at most two below 100 |
| Text.PadStart | src/components/Game/Leaderboard.tsx:12 | `padStart(width, fill)`: the result is as long as the wider of the input and the width, ends with the input, and is fill before it |
| Text.PaddedDecimalReadsBack | src/components/Game/Leaderboard.tsx:12 | zero-padding a decimal rendering to any width keeps it all digits and still reads back as the number |
| Text.LeadingZerosIgnored | src/components/Game/Leaderboard.tsx:12 | leading zeros do not change the value a digit string reads as |
| Text.Trim | src/contexts/GameContext.tsx:167 | `trim()`: the result has no white space at either end and is a contiguous slice of the input |
| Text.TrimFindsCore | src/contexts/GameContext.tsx:167 | trimming white space, then a core with no white space at its ends, then white space gives back exactly that core |
| Text.ToLower | src/contexts/GameContext.tsx:167 | `toLowerCase()` on ASCII: same length, no upper-case letter left, each letter lowered by itself and every other character unchanged |
| Text.LowerConcat | src/contexts/GameContext.tsx:167 | lower-casing distributes over concatenation |
| Leaderboard.TwoDigits | src/components/Game/Leaderboard.tsx:12 | a clock component is at least two digits, reads back as its number, is exactly two below 100, and from 10 on does not start with a zero: padding adds a zero only below 10 |
| Leaderboard.FormatTime | src/components/Game/Leaderboard.tsx:9-13 | `formatTime(seconds)` reads back as whole minutes and the seconds below 60, has the colon third from last, is five characters below 6000 seconds, and from ten minutes on starts with a non-zero digit, so the minutes are never padded beyond two digits |
| Leaderboard.FastestTimeCell | src/components/Game/Leaderboard.tsx:60 | a fastest-time cell is the `mm:ss` rendering of the time, reading back as its minutes and seconds, and a player with no time (`null`) shows exactly `00:00` |
| Leaderboard.FormatTimeZero | src/components/Game/Leaderboard.tsx:9-13 | zero seconds render as `00:00` |
| Leaderboard.NoTimeShowsAsZero | src/components/Game/Leaderboard.tsx:60 | the column shows the same text for no time and for zero seconds |
| Leaderboard.FormatTimeRoundTrip | src/components/Game/Leaderboard.tsx:10-11 | the parts read back satisfy seconds < 60 and minutes * 60 + seconds = input |
| Leaderboard.FormatTimeInjective | src/components/Game/Leaderboard.tsx:9-13 | two different numbers of seconds never render the same |
| FinishingTime.FormatTime | src/pages/UserFinishingTime.tsx:5-10 | a missing or non-number value renders as `--:--`; a number renders exactly as the leaderboard renders it, a clock that reads back as its whole minutes and the seconds below 60; at least five characters, and exactly five when missing or below 6000 |
| FinishingTime.ClockColon | src/pages/UserFinishingTime.tsx:7-9 | a recorded time has the colon third from last |
| FinishingTime.PlaceholderColon | src/pages/UserFinishingTime.tsx:6 | so does the placeholder |
| FinishingTime.PlaceholderIsNoClock | src/pages/UserFinishingTime.tsx:6 | the placeholder does not read back as a clock |
| FinishingTime.PagesDisagreeOnNoTime | src/pages/UserFinishingTime.tsx:5-10 | a player with no time sees something different on their own page than in the leaderboard |
| FinishingTime.PlaceholderIsNoTime | src/pages/UserFinishingTime.tsx:5-10 | no recorded time renders as the placeholder |
| GameTimer.Refresh | src/components/Game/GameTimer.tsx:10-20 | while the game is inactive the display keeps its value; otherwise it is the leaderboard clock of the elapsed seconds, reading back as their minutes and seconds |
| GameTimer.InitialDisplayIsZero | src/components/Game/GameTimer.tsx:8 | the initial `00:00` is exactly the rendering of zero elapsed seconds |
| Questions.Riddle | src/contexts/GameContext.tsx:40-101 | riddle n of 1..10 has id n, positive points and a non-empty answer |
| Questions.AnswersAreLowerWords | src/contexts/GameContext.tsx:40-101 | every canonical answer is a lower-case word |
| Questions.Bank | src/contexts/GameContext.tsx:40-101 | the bank has exactly ten riddles with ids 1..10 in order and positive points |
| Questions.BankAnswersAreLowerWords | src/contexts/GameContext.tsx:40-101 | every answer in the bank is a non-empty lower-case word |
| ClientGame.Normalize | src/contexts/GameContext.tsx:167 | `toLowerCase().trim()` leaves no white space at either end and no upper-case letter |
| ClientGame.NormalizeIdempotent | src/contexts/GameContext.tsx:167 | normalising twice is normalising once |
| ClientGame.LowerWordNormalizesToItself | src/contexts/GameContext.tsx:167 | a canonical lower-case answer is its own normal form |
| ClientGame.PaddingAndCaseForgiven | src/contexts/GameContext.tsx:167 | the canonical answer in any case, padded with white space on either side, is accepted (so `"  Treasure "` matches `"treasure"`) |
| ClientGame.ExtraCharacterRejected | src/contexts/GameContext.tsx:167 | the answer followed by any further non-space character is refused (so `"Treasures"` does not match `"treasure"`) |
| ClientGame.EndGame | src/contexts/GameContext.tsx:189-190 | `endGame` makes the game inactive and changes no other game-state field |
| ClientGame.SubmitAnswer | src/contexts/GameContext.tsx:164-187 | with no active question the answer is refused and nothing changes; otherwise it is correct exactly when the normal forms agree; a wrong answer changes nothing; a right one moves the index on by one and shows the next riddle, or ends the game after the tenth; no other field changes |
| ClientGame.CanonicalAnswersFinish | src/contexts/GameContext.tsx:164-187 | from riddle i, giving every remaining canonical answer ends the game with the index at 10, roster and ready set untouched |
| ClientGame.WrongAnswersChangeNothing | src/contexts/GameContext.tsx:169-186 | any run of wrong answers leaves the state exactly as it was |
| ClientGame.StartGame | src/contexts/GameContext.tsx:137-140 | the synchronous part of `startGame` sets the countdown to 10 and nothing else |
| ClientGame.ReadyUp | src/contexts/GameContext.tsx:214-225 | the id is added to the ready set; the countdown starts exactly when the set is as large as the roster and the roster is non-empty; nothing else changes |
| ClientGame.ReadyAgainKeepsSet | src/contexts/GameContext.tsx:215-217 | readying an id again leaves the ready set as it is |
| ClientGame.ReadyEach | src/contexts/GameContext.tsx:214-218 | readying ids in turn adds exactly those ids to the ready set and leaves the roster as it was |
| ClientGame.CountdownStartsOnLastReady | src/contexts/GameContext.tsx:214-225 | when the not-yet-ready players ready up under distinct ids, the countdown starts on the last call and on no other |
| ClientGame.Reset | src/contexts/GameContext.tsx:205-212 | `resetGame` gives the initial state, keeping only the roster, room code and answer timer |
| ClientGame.ResetForgetsAnswers | src/contexts/GameContext.tsx:205-212 | a reset after any answers lands in the same state as a reset before them |
| ClientGame.EnterRoom | src/contexts/GameContext.tsx:123-135 | `createRoom` and `joinRoom` set the room code and change nothing else in the game state |
| ClientGame.LeaveRoom | src/contexts/GameContext.tsx:227-231 | `leaveRoom` clears the room code and resets the game: the initial state, keeping only the roster and the answer timer |
| ClientGame.TickCountdown | src/contexts/GameContext.tsx:142-152 | a countdown tick shows the counter's value; at zero or below the game becomes active on the first riddle; nothing else changes |
| ClientGame.TickClock | src/contexts/GameContext.tsx:154-156 | a game-clock tick adds one elapsed second and changes nothing else |
| ClientGame.CountdownThenCanonicalAnswersFinish | src/contexts/GameContext.tsx:146-187 | once the countdown of a fresh game runs out, the ten canonical answers in turn end the game with the index at 10 |
| ClientGame.PlayKeepsRoster | src/contexts/GameContext.tsx:109-231 | no operation (`startGame` and `endGame` included) or timer tick changes the roster or the answer timer |
| ClientGame.RosterStaysEmpty | src/contexts/GameContext.tsx:109 | from the initial state, the roster is empty after any run of operations, `endGame` included, and ticks |
| ClientGame.ReadyNeverStartsCountdown | src/contexts/GameContext.tsx:214-225 | as written, `readyUp` never starts the countdown, after any run of operations (`startGame` and `endGame` included) and ticks |
| ClientGame.LeaveRestoresInitial | src/contexts/GameContext.tsx:227-231 | leaving after any run of operations (`startGame` and `endGame` included) and ticks gives back the initial state |
| ClientGame.JoinRoomAddingPlayer | src/contexts/GameContext.tsx:130-135 | joining as intended: the room code is set, and the player is appended to the roster exactly when no entry has their id; nothing else changes |
| ClientGame.JoinAllAppends | src/contexts/GameContext.tsx:130-135 | joining as intended, players with distinct new ids are appended one each, in order, and the ready set is untouched |
| ClientGame.IntendedJoinThenReadyStarts | src/contexts/GameContext.tsx:214-225 | joining as intended, a player alone in a room who readies up starts the countdown |
| ClientGame.IntendedRoomStartsOnLastReady | src/contexts/GameContext.tsx:214-225 | joining as intended, a room of players with distinct ids starts its countdown when the last of them readies up, and not before |
| Ranking.RankKey | src/components/Game/GameRoom.tsx:94 | `completionTime \|\| 999`: a truthy time is its own key; a missing or zero time ranks as 999 |
| Ranking.Insert | src/components/Game/GameRoom.tsx:93-94 | inserting into a sorted list keeps it sorted, adds exactly that player, and puts them before the players already there with an equal key |
| Ranking.SortByCompletion | src/components/Game/GameRoom.tsx:93-94 | the results are sorted by key, a permutation of the roster with no entry altered, and stable: for each key, its players keep roster order |
| Ranking.UntimedRankAfterFast | src/components/Game/GameRoom.tsx:94 | a player with no time is listed after anyone with a time under 999 |
| ServerState.FindIndex | server/server.js:163 | `findIndex`: the first position holding the id, or -1 exactly when no entry has it |
| ServerState.RemoveId | server/server.js:286 | after the `filter`, an entry is present exactly when it was present and has another id; the roster is unchanged when no entry has the id and empty when every entry does |
| ServerProps.RemoveIdDistributes | server/server.js:286 | the filter goes entry by entry, in order: filtering a concatenation filters each part and joins the results |
| ServerProps.RemoveIdOne | server/server.js:286 | a single entry is kept exactly when its id is another |
| Server.CreateRoom | server/server.js:66-86 | an empty or already-taken code (in any durable room, open or not) or a store failure gives an error and no change; otherwise the code gets an open durable room and a fresh empty session replacing any live one |
| Server.JoinRoom | server/server.js:89-156 | a store failure or no open durable room gives an error and no change; otherwise the session is created empty (inactive, at question 0) if missing and otherwise keeps its game fields, the user is appended only if their id is absent, a new user gets a player record with no games, score 0 and no fastest time while other records are untouched, the user joins the member log and player table if absent, the connection is bound to the room, and the others hear of the join while the caller gets the roster |
| Server.PlayerReadyUp | server/server.js:159-178 | an unknown room or id changes nothing; otherwise only the first entry with the id becomes ready, the others are told, and `gameStart` goes to everyone exactly when all of a roster of more than one are ready |
| Server.StartCountdown | server/server.js:181-188 | an unknown room changes nothing; otherwise the session is active at once and everyone gets `gameStart` |
| Server.CorrectAnswer | server/server.js:191-207 | the entry whose id is the connection id gains exactly 100; no other entry or field changes; the question index is ignored; no match changes nothing |
| Server.RecordCompletion | server/server.js:224-233 | one more game, the high score is the larger of old and new, and the time becomes fastest exactly when there was none, it was 0, or the new time is smaller |
| Server.CompleteGame | server/server.js:210-245 | the caller's entry gets the time, overwriting any earlier one; with the store up, the durable record under that id (if any) takes the completion, and `gameEnd` goes out exactly when every entry has a truthy time; a store failure keeps the time but loses the stats update and `gameEnd` |
| Server.ResetGame | server/server.js:248-263 | the roster keeps its length, order, ids and names; everyone is unready, with score 0 and no time; the session is inactive at index 0 |
| Server.RemovePlayer | server/server.js:279-304 | an empty or unknown code changes nothing; otherwise every entry with the connection id goes and the rest keep their order; the session is deleted exactly when the roster empties, and then the durable room is closed |
| ServerProps.RemoveIdKeepsUnique | server/server.js:286 | removing a player keeps roster ids unique |
| ServerProps.JoinRoomKeepsValid | server/server.js:118-135 | a join keeps the registry invariant: every live session has an open durable room and a roster with unique ids |
| ServerProps.HandleKeepsValid | server/server.js:62-276 | every handler keeps the registry invariant |
| ServerProps.RunKeepsValid | server/server.js:62-276 | the invariant holds after any sequence of events |
| ServerProps.JoinCreatesSession | server/server.js:100-135 | the first join to an open room with no live session creates one that is inactive at question 0 with the new user alone and unready, and gives a new user an empty player record |
| ServerProps.JoinIsIdempotent | server/server.js:112-135 | joining again under the same user id, from any connection and with any name, changes no session, room or player record |
| ServerProps.DistinctJoinsAppend | server/server.js:128-135 | joins under distinct new ids append one entry each, in call order |
| ServerProps.ReadinessIsMonotonic | server/server.js:163-166 | no `playerReady` makes any player in any session unready |
| ServerProps.ThreeCorrectAnswers | server/server.js:197-202 | three correct answers from one connection add 300 to that player's score and change no other entry |
| ServerProps.NoGameEndWhileSomeoneRuns | server/server.js:235-240 | while another entry has no truthy time, a completion sends nothing |
| ServerProps.GameEndOnLastCompletion | server/server.js:235-240 | the completion that gives the last entry a non-zero time sends `gameEnd` with the roster |
| ServerProps.FastestTimeNeverWorsens | server/server.js:224-230 | one completion, with any reported time, never makes a recorded positive fastest time larger; with a positive time it stays positive |
| ServerProps.ZeroTimeClearsFastest | server/server.js:211-230 | a completion reported with time 0 records 0, and because 0 counts as no time, the next completion's time replaces it whatever it is |
| ServerProps.FastestTimeWorsensAfterZero | server/server.js:211-230 | so across two completions (a 0, then a slower time) the fastest time can grow, for example from 100 to 500 |
| ServerProps.ResetIsIdempotent | server/server.js:253-260 | resetting twice is resetting once |
| ServerProps.RemoveIdAtIndex | server/server.js:286 | with unique ids, removing a player removes just that position |
| ServerProps.RemoveIdMiddle | server/server.js:286 | removing the id of an entry that alone has it leaves the entries before and after it, in order |
| ServerProps.LastLeaveClosesRoom | server/server.js:292-300 | when the last player leaves, the session goes and the durable room closes, so a later join to the code is refused as not found |
| Server.Handle | server/server.js:62-276 | only a create or a join opens a session, adds a durable room or binds a connection; a connection that never joined disconnects with no effect |
| ServerProps.DisconnectLeavesBoundRoom | server/server.js:270-274 | a disconnect is a leave from the room the connection last joined |
| ServerProps.JoinThenDisconnectClosesRoom | server/server.js:270-304 | a user alone in a fresh session who disconnects takes the session with them, closes the durable room, and the others are told |
| ServerProps.UnknownRoomIgnored | server/server.js:159-280 | ready, countdown, answer, completion, reset and leave events for a room with no live session change nothing and send nothing |
| ServerScenarios.AnswerFromOtherConnectionIsDropped | server/server.js:197-198 | a user whose connection id differs from their user id is never credited for a correct answer |
| ServerScenarios.TwoJoin | server/server.js:66-135 | creating a room and joining two users gives a roster of the two, in join order, neither ready |
| ServerScenarios.ReadyBoth | server/server.js:159-178 | with two players, the first ready sends no `gameStart` and the second does |
| ServerScenarios.CompleteBoth | server/server.js:210-245 | with two players, the first completion sends nothing and the second sends `gameEnd` |
| ServerScenarios.GameLobby | server/server.js:66-188 | from an empty server: create, two joins, two readies and the countdown leave both players in the live roster, ready, and the first with an empty player record |
| ServerScenarios.GamePlay | server/server.js:191-245 | one correct answer and two completions end the game with the final roster, and the answering player's record shows one game, a high score of 100 and their time |
| ServerScenarios.WholeGame | server/server.js:66-245 | a whole two-player game from an empty server, chained through the handlers, ends with `gameEnd` and the first player's record updated |

## Left out

- The durable store is two tables, and a `Store` flag says whether it answers. A handler that hits a store failure is modelled as all-or-nothing. Partial writes, such as a player record saved before a failing room save in `joinRoom`, are not modelled.
- Handlers run atomically, one event at a time. The interleaving of concurrent `await`s in `createRoom`, `joinRoom` and `completeGame` is not modelled.
- The write that closes a room after its last player leaves (server/server.js:296-300) is not awaited. The model applies it at once, so a join that arrives before the write lands, and still finds the room open, is not modelled. A failing write is the `Failing` store case: the room stays open.
- Transport is a returned list of `(audience, event)` messages. Delivery, socket rooms, CORS, static serving and `listen` are not modelled.
- The leaderboard HTTP query (server/server.js:307-318) is a database read with no logic of its own.
- When timers fire is not modelled. The effects of the countdown and game-clock intervals in `startGame` (src/contexts/GameContext.tsx:142-156) are events that may come at any point of a run: ClientGame.TickCountdown and ClientGame.TickClock. The `setTimeout` in the question display and the copy-feedback timeout are not modelled. ClientGame.StartGame is only the synchronous assignment of the countdown.
- Randomness is not modelled: `generateRoomCode`, and the random completion times `endGame` assigns to players.
- ClientGame.EndGame: leaves the roster as it is, instead of writing random completion times into each entry (src/contexts/GameContext.tsx:196-201). The roster is always empty (ClientGame.RosterStaysEmpty), so that map has nothing to change. The contract states that the game becomes inactive and nothing else changes.
- Toasts are presentation and are not modelled.
- Mock authentication, local storage and the presentation components have no logic to model. The riddles' wording is only displayed and is not modelled.
- Text.ToLower: lower-cases ASCII letters only; other characters are unchanged, which is narrower than `toLowerCase`. White space for `trim` is the ECMAScript set of characters.
- Text.DecimalString: renders an unbounded natural. A JavaScript number loses integer precision above 2^53, and `toString()` switches to exponent notation from 1e21 on; neither is modelled.
- Leaderboard.FormatTime: takes a natural number of seconds. Negative or fractional times are not modelled. The `null` a player with no fastest time has (the record's default, server/server.js:35) is modelled by Leaderboard.FastestTimeCell, which renders it as `00:00`, as the arithmetic on `null` does.
- FinishingTime.FormatTime: the same restriction applies. A non-number or NaN is a separate `NotANumber` reading, rendered as the placeholder.

## Behaviour of the code worth noting

The model follows the code in each of these:
- `createRoom` registers a session with an empty roster.
- `completionTime` is overwritten on every completion.
- The reported `time` is stored unchecked. A time of 0 becomes the fastest time, and since `!player.fastestTime` treats 0 as no time, the next completion replaces it even when slower, so the fastest time can get worse over two games.
- A room whose last player left stays closed, so a rejoin is refused.
- `playerReady` never makes a session active; only `startCountdown` does.
- The leaderboard shows `00:00` for a player with no fastest time, while that player's own page shows `--:--`. Because `completeGame` looks stats up under the connection id (next item), most players have no fastest time.
- Stats are keyed by user id, but `completeGame` looks them up under the roster entry's id. That id is the connection id (the entry matched by `socket.id`), so stats are updated only when the two coincide.

## Findings

| source | as written | input that shows it | evidently intended | confidence | as-written member | corrected member |
|---|---|---|---|---|---|---|
| src/contexts/GameContext.tsx:130-135, 214-225 | `joinRoom` only sets the room code; its comment announces that the current player is added, but no code does it. Nothing else fills `players`, which starts empty (:109), so the `players.length > 0` test in `readyUp` never holds and the game room's ready button (src/components/Game/GameRoom.tsx:57-62) never starts the countdown | from the initial state, `joinRoom("ABC123")` then `readyUp("u1")`: the ready set holds one id, the roster none, and no countdown starts | joining adds the current player to the roster, so the last player in the room to ready up starts the countdown | high, not executed | ClientGame.ReadyNeverStartsCountdown | ClientGame.JoinRoomAddingPlayer |

=== FILE: client_game.dfy ===
/** The client's game state and its update functions
    (src/contexts/GameContext.tsx). React state is a value: each operation
    takes the current state and returns the next one. */
module ClientGame {
  import opened Wrappers
  import opened Text
  import opened Questions

  datatype Player = Player(id: string, username: string, score: int, completionTime: Option<int>)

  datatype GameState = GameState(
    isGameActive: bool,
    activeQuestion: Option<Question>,
    currentQuestionIndex: nat,
    players: seq<Player>,
    timeRemaining: int,
    gameStartCountdown: int,
    gameElapsedTime: nat,
    roomCode: Option<string>,
    readyPlayers: set<string>)

  /** The length of the pre-game countdown, in ticks. */
  const CountdownTicks: int := 10

  /** The state the provider starts in. */
  function Initial(): GameState {
    GameState(false, None, 0, [], 10, CountdownTicks, 0, None, {})
  }

  // ---------------------------------------------------------------------------
  // Answer checking
  // ---------------------------------------------------------------------------

  /** `s.toLowerCase().trim()`: no upper-case letter, no space at either end. */
  function Normalize(s: string): (r: string)
    ensures Trimmed(r)
    ensures forall k :: 0 <= k < |r| ==> !IsUpper(r[k])
  {
    Trim(ToLower(s))
  }

  /** The comparison `submitAnswer` makes. */
  predicate AnswerMatches(answer: string, canonical: string) {
    Normalize(answer) == Normalize(canonical)
  }

  /** Normalising twice is normalising once. */
  lemma NormalizeIdempotent(s: string)
    ensures Normalize(Normalize(s)) == Normalize(s)
  {
    var n := Normalize(s);
    LowerChangesNoLower(n);
    TrimFindsCore([], n, []);
    assert [] + n + [] == n;
  }

  /** `toLowerCase` leaves a string with no upper-case letter alone. */
  lemma LowerChangesNoLower(s: string)
    requires forall k :: 0 <= k < |s| ==> !IsUpper(s[k])
    ensures ToLower(s) == s
  {
  }

  /** A lower-case word is its own normal form. */
  lemma LowerWordNormalizesToItself(s: string)
    requires IsLowerWord(s)
    ensures Normalize(s) == s
  {
    LowerChangesNoLower(s);
    TrimFindsCore([], s, []);
    assert [] + s + [] == s;
  }

  /** Surrounding spaces and capitals are forgiven: a submission that is the
      canonical lower-case answer, in any case, with spaces on either side,
      matches it. */
  lemma PaddingAndCaseForgiven(pre: string, word: string, post: string, canonical: string)
    requires AllSpace(pre) && AllSpace(post)
    requires IsLowerWord(canonical) && ToLower(word) == canonical
    ensures AnswerMatches(pre + word + post, canonical)
  {
    LowerConcat(pre + word, post);
    LowerConcat(pre, word);
    LowerKeepsSpaces(pre);
    LowerKeepsSpaces(post);
    Questions.LowerWordIsNormal(canonical);
    TrimFindsCore(pre, canonical, post);
    LowerWordNormalizesToItself(canonical);
  }

  /** Anything more than the answer is not forgiven: the answer followed by
      one further non-space character (a plural "s", say) never matches. */
  lemma ExtraCharacterRejected(word: string, c: char, canonical: string)
    requires IsLowerWord(canonical) && ToLower(word) == canonical
    requires !IsSpace(c)
    ensures !AnswerMatches(word + [c], canonical)
  {
    LowerConcat(word, [c]);
    var lc := ToLower([c]);
    assert lc[0] == LowerChar(c);
    LowerKeepsNonSpace(c);
    var n := canonical + lc;
    assert Trimmed(n) by {
      assert n[|n| - 1] == LowerChar(c);
      if |canonical| > 0 {
        assert n[0] == canonical[0];
        Questions.LowerWordIsNormal(canonical);
      }
    }
    TrimFindsCore([], n, []);
    assert [] + n + [] == n;
    LowerWordNormalizesToItself(canonical);
  }

  // ---------------------------------------------------------------------------
  // Question progression
  // ---------------------------------------------------------------------------

  datatype Submission = Submission(state: GameState, correct: bool)

  /** `endGame`, as far as the game state goes: the game stops, nothing else
      changes. */
  function EndGame(st: GameState): (r: GameState)
    ensures !r.isGameActive
    ensures r.(isGameActive := st.isGameActive) == st
  {
    st.(isGameActive := false)
  }

  /** `submitAnswer(answer)`. With no active question the answer is refused.
      A wrong answer changes nothing. A right one moves the index on by one
      and shows the next riddle, or ends the game after the last. */
  function SubmitAnswer(st: GameState, answer: string): (r: Submission)
    ensures st.activeQuestion.None? ==> r == Submission(st, false)
    ensures st.activeQuestion.Some? ==>
              (r.correct <==> AnswerMatches(answer, st.activeQuestion.value.answer))
    ensures !r.correct ==> r.state == st
    ensures r.correct ==> r.state.currentQuestionIndex == st.currentQuestionIndex + 1
    ensures r.correct && r.state.currentQuestionIndex < |Bank()| ==>
              && r.state.activeQuestion == Some(Bank()[r.state.currentQuestionIndex])
              && r.state.isGameActive == st.isGameActive
    ensures r.correct && r.state.currentQuestionIndex >= |Bank()| ==>
              && !r.state.isGameActive
              && r.state.activeQuestion == st.activeQuestion
    ensures r.state == st.(isGameActive := r.state.isGameActive,
                           activeQuestion := r.state.activeQuestion,
                           currentQuestionIndex := r.state.currentQuestionIndex)
  {
    match st.activeQuestion
    case None => Submission(st, false)
    case Some(q) =>
      if !AnswerMatches(answer, q.answer) then Submission(st, false)
      else
        var next := st.currentQuestionIndex + 1;
        var advanced := st.(currentQuestionIndex := next);
        if next < |Bank()| then Submission(advanced.(activeQuestion := Some(Bank()[next])), true)
        else Submission(EndGame(advanced), true)
  }

  /** Submits the answers one after another. */
  function SubmitAll(st: GameState, answers: seq<string>): GameState
    decreases |answers|
  {
    if |answers| == 0 then st
    else SubmitAll(SubmitAnswer(st, answers[0]).state, answers[1..])
  }

  /** The game is running and showing riddle `i` of the bank. */
  predicate OnRiddle(st: GameState, i: nat) {
    && i < |Bank()|
    && st.isGameActive
    && st.currentQuestionIndex == i
    && st.activeQuestion == Some(Bank()[i])
  }

  function CanonicalAnswers(): (answers: seq<string>)
    ensures |answers| == |Bank()|
  {
    seq(|Bank()|, i requires 0 <= i < |Bank()| => Bank()[i].answer)
  }

  /** Playing from riddle `i` and giving every remaining canonical answer
      ends the game with the index one past the last riddle; the roster and
      the ready set are untouched. */
  lemma {:induction false} CanonicalAnswersFinish(st: GameState, i: nat)
    requires OnRiddle(st, i)
    ensures var end := SubmitAll(st, CanonicalAnswers()[i..]);
            && !end.isGameActive
            && end.currentQuestionIndex == |Bank()|
            && end.players == st.players
            && end.readyPlayers == st.readyPlayers
    decreases |Bank()| - i
  {
    var answers := CanonicalAnswers()[i..];
    assert answers[0] == Bank()[i].answer;
    var r := SubmitAnswer(st, answers[0]);
    assert r.correct;
    assert SubmitAll(st, answers) == SubmitAll(r.state, answers[1..]);
    if i + 1 < |Bank()| {
      assert OnRiddle(r.state, i + 1);
      assert answers[1..] == CanonicalAnswers()[i + 1..];
      CanonicalAnswersFinish(r.state, i + 1);
    } else {
      assert answers[1..] == [];
    }
  }

  /** A run of wrong answers leaves the state exactly as it was. */
  lemma {:induction false} WrongAnswersChangeNothing(st: GameState, answers: seq<string>)
    requires st.activeQuestion.Some?
    requires forall k :: 0 <= k < |answers| ==> !AnswerMatches(answers[k], st.activeQuestion.value.answer)
    ensures SubmitAll(st, answers) == st
    decreases |answers|
  {
    if |answers| > 0 {
      assert SubmitAnswer(st, answers[0]).state == st;
      WrongAnswersChangeNothing(st, answers[1..]);
    }
  }

  // ---------------------------------------------------------------------------
  // Ready-up and reset
  // ---------------------------------------------------------------------------

  datatype ReadyResult = ReadyResult(state: GameState, startsCountdown: bool)

  /** The synchronous part of `startGame`: the countdown is set to its full
      length. Its ticks are driven by timers. */
  function StartGame(st: GameState): (r: GameState)
    ensures r.gameStartCountdown == CountdownTicks
    ensures r.(gameStartCountdown := st.gameStartCountdown) == st
  {
    st.(gameStartCountdown := CountdownTicks)
  }

  /** `readyUp(playerId)`: the id joins the ready set; the countdown starts
      when the set is as large as the roster and the roster is not empty. */
  function ReadyUp(st: GameState, playerId: string): (r: ReadyResult)
    ensures r.state.readyPlayers == st.readyPlayers + {playerId}
    ensures r.startsCountdown <==> |r.state.readyPlayers| == |st.players| && |st.players| > 0
    ensures r.state.gameStartCountdown == if r.startsCountdown then CountdownTicks else st.gameStartCountdown
    ensures r.state == st.(readyPlayers := r.state.readyPlayers,
                           gameStartCountdown := r.state.gameStartCountdown)
  {
    var ready := st.readyPlayers + {playerId};
    var st' := st.(readyPlayers := ready);
    if |ready| == |st.players| && |st.players| > 0 then ReadyResult(StartGame(st'), true)
    else ReadyResult(st', false)
  }

  /** Readies the ids one after another and reports, per call, whether the
      countdown started. */
  function ReadyEach(st: GameState, ids: seq<string>): (r: (GameState, seq<bool>))
    ensures |r.1| == |ids|
    ensures r.0.readyPlayers == st.readyPlayers + (set k | 0 <= k < |ids| :: ids[k])
    ensures r.0.players == st.players
    decreases |ids|
  {
    if |ids| == 0 then (st, [])
    else
      var first := ReadyUp(st, ids[0]);
      var rest := ReadyEach(first.state, ids[1..]);
      assert (set k | 0 <= k < |ids| :: ids[k]) == {ids[0]} + (set k | 0 <= k < |ids[1..]| :: ids[1..][k]);
      (rest.0, [first.startsCountdown] + rest.1)
  }

  predicate Distinct(ids: seq<string>) {
    forall i, j :: 0 <= i < j < |ids| ==> ids[i] != ids[j]
  }

  /** When the players who are not ready yet ready up one by one, each under
      a distinct id, the countdown starts on the last call and on no other. */
  lemma {:induction false} CountdownStartsOnLastReady(st: GameState, ids: seq<string>)
    requires Distinct(ids)
    requires forall k :: 0 <= k < |ids| ==> ids[k] !in st.readyPlayers
    requires |st.readyPlayers| + |ids| == |st.players| > 0
    requires |ids| > 0
    ensures forall k :: 0 <= k < |ids| ==> (ReadyEach(st, ids).1[k] <==> k == |ids| - 1)
    decreases |ids|
  {
    var first := ReadyUp(st, ids[0]);
    assert |first.state.readyPlayers| == |st.readyPlayers| + 1;
    var flags := ReadyEach(st, ids).1;
    assert flags[0] == first.startsCountdown;
    if |ids| > 1 {
      var tail := ids[1..];
      forall k | 0 <= k < |tail|
        ensures tail[k] !in first.state.readyPlayers
      {
        assert tail[k] == ids[k + 1];
      }
      CountdownStartsOnLastReady(first.state, tail);
      assert flags[1..] == ReadyEach(first.state, tail).1;
      forall k | 0 < k < |ids|
        ensures flags[k] <==> k == |ids| - 1
      {
        assert flags[k] == ReadyEach(first.state, tail).1[k - 1];
      }
    }
  }

  /** Readying an id that is already ready leaves the ready set as it is. */
  lemma ReadyAgainKeepsSet(st: GameState, playerId: string)
    requires playerId in st.readyPlayers
    ensures ReadyUp(st, playerId).state.readyPlayers == st.readyPlayers
  {
  }

  /** `resetGame`: back to the initial state, except that the roster, the
      room code and the answer timer are kept. */
  function Reset(st: GameState): (r: GameState)
    ensures r == Initial().(players := st.players, roomCode := st.roomCode,
                            timeRemaining := st.timeRemaining)
  {
    st.(isGameActive := false, activeQuestion := None, currentQuestionIndex := 0,
        gameElapsedTime := 0, gameStartCountdown := CountdownTicks, readyPlayers := {})
  }

  /** Whatever answers were given, a reset afterwards lands in the same state
      as a reset before them. */
  lemma {:induction false} ResetForgetsAnswers(st: GameState, answers: seq<string>)
    ensures Reset(SubmitAll(st, answers)) == Reset(st)
    decreases |answers|
  {
    if |answers| > 0 {
      var next := SubmitAnswer(st, answers[0]).state;
      assert Reset(next) == Reset(st);
      ResetForgetsAnswers(next, answers[1..]);
    }
  }

  // ---------------------------------------------------------------------------
  // Rooms, timers and runs of events
  // ---------------------------------------------------------------------------

  /** `createRoom` and `joinRoom`, as far as the game state goes: the room
      code is set and nothing else changes. The code `createRoom` draws at
      random is a parameter. */
  function EnterRoom(st: GameState, code: string): (r: GameState)
    ensures r.roomCode == Some(code)
    ensures r.(roomCode := st.roomCode) == st
  {
    st.(roomCode := Some(code))
  }

  /** `leaveRoom`: the room code is cleared and the game reset, so only the
      roster and the answer timer survive. */
  function LeaveRoom(st: GameState): (r: GameState)
    ensures r == Initial().(players := st.players, timeRemaining := st.timeRemaining)
  {
    Reset(st).(roomCode := None)
  }

  /** One tick of the countdown interval in `startGame`, given the value its
      counter has reached: the countdown shows that value, and at zero or
      below the game becomes active on the first riddle. The question index
      is not touched. */
  function TickCountdown(st: GameState, countdown: int): (r: GameState)
    ensures r.gameStartCountdown == countdown
    ensures countdown > 0 ==> r == st.(gameStartCountdown := countdown)
    ensures countdown <= 0 ==> r.isGameActive && r.activeQuestion == Some(Bank()[0])
    ensures r.(gameStartCountdown := st.gameStartCountdown, isGameActive := st.isGameActive,
               activeQuestion := st.activeQuestion) == st
  {
    var shown := st.(gameStartCountdown := countdown);
    if countdown > 0 then shown
    else shown.(isGameActive := true, activeQuestion := Some(Bank()[0]))
  }

  /** One tick of the game clock. */
  function TickClock(st: GameState): (r: GameState)
    ensures r.gameElapsedTime == st.gameElapsedTime + 1
    ensures r.(gameElapsedTime := st.gameElapsedTime) == st
  {
    st.(gameElapsedTime := st.gameElapsedTime + 1)
  }

  /** When the countdown runs out on a fresh game, every canonical answer in
      turn plays the whole bank through. */
  lemma CountdownThenCanonicalAnswersFinish(st: GameState, countdown: int)
    requires st.currentQuestionIndex == 0 && countdown <= 0
    ensures var end := SubmitAll(TickCountdown(st, countdown), CanonicalAnswers());
            !end.isGameActive && end.currentQuestionIndex == |Bank()|
  {
    var started := TickCountdown(st, countdown);
    assert OnRiddle(started, 0);
    CanonicalAnswersFinish(started, 0);
    assert CanonicalAnswers()[0..] == CanonicalAnswers();
  }

  /** What can happen to the client's game state: the provider's operations
      and the effects of its timers, in any order (when the timers fire is
      not modelled). */
  datatype ClientEvent =
    | Enter(code: string)
    | Leave
    | Ready(playerId: string)
    | Answer(answer: string)
    | Start
    | End
    | ResetRequested
    | CountdownTicked(countdown: int)
    | ClockTicked

  function Apply(st: GameState, e: ClientEvent): GameState {
    match e
    case Enter(code) => EnterRoom(st, code)
    case Leave => LeaveRoom(st)
    case Ready(id) => ReadyUp(st, id).state
    case Answer(answer) => SubmitAnswer(st, answer).state
    case Start => StartGame(st)
    case End => EndGame(st)
    case ResetRequested => Reset(st)
    case CountdownTicked(countdown) => TickCountdown(st, countdown)
    case ClockTicked => TickClock(st)
  }

  function Play(st: GameState, es: seq<ClientEvent>): GameState
    decreases |es|
  {
    if |es| == 0 then st else Play(Apply(st, es[0]), es[1..])
  }

  /** No operation or timer writes the roster or the answer timer. */
  lemma ApplyKeepsRoster(st: GameState, e: ClientEvent)
    ensures Apply(st, e).players == st.players
    ensures Apply(st, e).timeRemaining == st.timeRemaining
  {
  }

  lemma {:induction false} PlayKeepsRoster(st: GameState, es: seq<ClientEvent>)
    ensures Play(st, es).players == st.players
    ensures Play(st, es).timeRemaining == st.timeRemaining
    decreases |es|
  {
    if |es| > 0 {
      ApplyKeepsRoster(st, es[0]);
      PlayKeepsRoster(Apply(st, es[0]), es[1..]);
    }
  }

  /** As written, the roster the provider starts with, `[]`, is the roster
      it keeps, whatever happens. */
  lemma RosterStaysEmpty(es: seq<ClientEvent>)
    ensures Play(Initial(), es).players == []
  {
    PlayKeepsRoster(Initial(), es);
  }

  /** So, as written, `readyUp` never starts the countdown: the roster it
      compares the ready set with is always empty. */
  lemma ReadyNeverStartsCountdown(es: seq<ClientEvent>, playerId: string)
    ensures !ReadyUp(Play(Initial(), es), playerId).startsCountdown
  {
    RosterStaysEmpty(es);
  }

  /** Leaving, after anything at all, is being back at the start. */
  lemma LeaveRestoresInitial(es: seq<ClientEvent>)
    ensures LeaveRoom(Play(Initial(), es)) == Initial()
  {
    PlayKeepsRoster(Initial(), es);
  }

  predicate InRoster(ps: seq<Player>, id: string) {
    exists k :: 0 <= k < |ps| && ps[k].id == id
  }

  /** `joinRoom` as its own comment says it should be: besides setting the
      room code, the current player is added to the roster unless an entry
      with their id is already there. */
  function JoinRoomAddingPlayer(st: GameState, code: string, me: Player): (r: GameState)
    ensures r.roomCode == Some(code)
    ensures InRoster(r.players, me.id)
    ensures InRoster(st.players, me.id) ==> r.players == st.players
    ensures !InRoster(st.players, me.id) ==> r.players == st.players + [me]
    ensures r.(roomCode := st.roomCode, players := st.players) == st
  {
    var entered := EnterRoom(st, code);
    if InRoster(st.players, me.id) then entered
    else
      var ps := st.players + [me];
      assert ps[|st.players|] == me;
      entered.(players := ps)
  }

  /** Joins the players one after another. */
  function JoinAll(st: GameState, code: string, ps: seq<Player>): GameState
    decreases |ps|
  {
    if |ps| == 0 then st else JoinAll(JoinRoomAddingPlayer(st, code, ps[0]), code, ps[1..])
  }

  function Ids(ps: seq<Player>): (ids: seq<string>)
    ensures |ids| == |ps|
    ensures forall k :: 0 <= k < |ps| ==> ids[k] == ps[k].id
  {
    seq(|ps|, k requires 0 <= k < |ps| => ps[k].id)
  }

  /** Players with distinct ids, none already in the roster, are appended
      one each, in order; the ready set is untouched. */
  lemma {:induction false} JoinAllAppends(st: GameState, code: string, ps: seq<Player>)
    requires Distinct(Ids(ps))
    requires forall k :: 0 <= k < |ps| ==> !InRoster(st.players, ps[k].id)
    ensures JoinAll(st, code, ps).players == st.players + ps
    ensures JoinAll(st, code, ps).readyPlayers == st.readyPlayers
    decreases |ps|
  {
    if |ps| == 0 {
      assert st.players + ps == st.players;
    } else {
      var next := JoinRoomAddingPlayer(st, code, ps[0]);
      var tail := ps[1..];
      assert next.players == st.players + [ps[0]];
      forall k | 0 <= k < |tail|
        ensures !InRoster(next.players, tail[k].id)
      {
        assert tail[k] == ps[k + 1];
        assert Ids(ps)[0] != Ids(ps)[k + 1];
        forall j | 0 <= j < |next.players|
          ensures next.players[j].id != tail[k].id
        {
          if j < |st.players| {
            assert next.players[j] == st.players[j];
          }
        }
      }
      assert Distinct(Ids(tail)) by {
        forall i, j | 0 <= i < j < |tail|
          ensures Ids(tail)[i] != Ids(tail)[j]
        {
          assert Ids(tail)[i] == Ids(ps)[i + 1];
          assert Ids(tail)[j] == Ids(ps)[j + 1];
        }
      }
      JoinAllAppends(next, code, tail);
      assert st.players + [ps[0]] + tail == st.players + ps;
    }
  }

  /** With joining as intended, a player alone in a room who readies up
      starts the countdown. */
  lemma IntendedJoinThenReadyStarts(code: string, me: Player)
    ensures ReadyUp(JoinRoomAddingPlayer(Initial(), code, me), me.id).startsCountdown
  {
    var st := JoinRoomAddingPlayer(Initial(), code, me);
    assert st.players == [me];
    assert st.readyPlayers + {me.id} == {me.id};
  }

  /** With joining as intended, a room of players with distinct ids starts
      its countdown when the last of them readies up, and not before. */
  lemma IntendedRoomStartsOnLastReady(code: string, ps: seq<Player>)
    requires |ps| > 0 && Distinct(Ids(ps))
    ensures forall k :: 0 <= k < |ps| ==>
              (ReadyEach(JoinAll(Initial(), code, ps), Ids(ps)).1[k] <==> k == |ps| - 1)
  {
    JoinAllAppends(Initial(), code, ps);
    assert Initial().players + ps == ps;
    CountdownStartsOnLastReady(JoinAll(Initial(), code, ps), Ids(ps));
  }
}

=== FILE: clock.dfy ===
/** The `mm:ss` rendering of a number of seconds, as the leaderboard table
    shows a player's fastest time (src/components/Game/Leaderboard.tsx). */
module Leaderboard {
  import opened Wrappers
  import opened Text

  /** One component of the clock: the decimal rendering left-padded with
      '0' to at least two characters. */
  function TwoDigits(n: nat): (r: string)
    ensures 2 <= |r|
    ensures IsDigits(r) && ParseDecimal(r) == n
    ensures n < 100 ==> |r| == 2
    ensures 10 <= n ==> r[0] != '0'
  {
    PaddedDecimalReadsBack(n, 2);
    var d := DecimalString(n);
    var r := PadStart(d, 2, '0');
    assert 10 <= n ==> r == r[|r| - |d|..] == d;
    r
  }

  /** Reads a rendered clock back: the part before the last three characters
      is the minutes, the last two characters are the seconds. */
  function ParseClock(r: string): Option<(nat, nat)> {
    if |r| >= 4 && r[|r| - 3] == ':' && IsDigits(r[..|r| - 3]) && IsDigits(r[|r| - 2..])
    then Some((ParseDecimal(r[..|r| - 3]), ParseDecimal(r[|r| - 2..])))
    else None
  }

  /** `formatTime(seconds)`: whole minutes, a colon, the remaining seconds.
      Reading the result back gives the minutes and the seconds below 60;
      up to 99 minutes the result is exactly five characters long. */
  function FormatTime(seconds: nat): (r: string)
    ensures ParseClock(r) == Some((seconds / 60, seconds % 60))
    ensures 5 <= |r| && r[|r| - 3] == ':'
    ensures seconds < 6000 ==> |r| == 5
    ensures 600 <= seconds ==> r[0] != '0'
  {
    var minutes, secs := seconds / 60, seconds % 60;
    var r := TwoDigits(minutes) + ":" + TwoDigits(secs);
    JoinedClockReadsBack(TwoDigits(minutes), TwoDigits(secs));
    r
  }

  /** A cell of the fastest-time column: `formatTime(player.fastestTime)`.
      A player who never finished has `null` there (the record's default),
      which the arithmetic reads as 0, so the cell shows the clock of zero
      seconds. */
  function FastestTimeCell(fastest: Option<nat>): (r: string)
    ensures fastest.None? ==> r == "00:00"
    ensures fastest.Some? ==> r == FormatTime(fastest.value)
    ensures fastest.None? ==> ParseClock(r) == Some((0, 0))
    ensures fastest.Some? ==> ParseClock(r) == Some((fastest.value / 60, fastest.value % 60))
  {
    match fastest
    case None => FormatTimeZero(); FormatTime(0)
    case Some(seconds) => FormatTime(seconds)
  }

  /** Zero seconds render as `00:00`. */
  lemma FormatTimeZero()
    ensures FormatTime(0) == "00:00"
  {
    ZeroIsTwoZeros();
    assert FormatTime(0) == "00" + ":" + "00";
  }

  lemma ZeroIsTwoZeros()
    ensures TwoDigits(0) == "00"
  {
    assert DecimalString(0) == "0";
    assert PadStart("0", 2, '0') == "00";
  }

  /** The column cannot tell a player with no time from one who finished in
      zero seconds. */
  lemma NoTimeShowsAsZero()
    ensures FastestTimeCell(None) == FastestTimeCell(Some(0))
  {
  }

  lemma JoinedClockReadsBack(mm: string, ss: string)
    requires 2 <= |mm| && |ss| == 2
    requires IsDigits(mm) && IsDigits(ss)
    ensures ParseClock(mm + ":" + ss) == Some((ParseDecimal(mm), ParseDecimal(ss)))
  {
    var r := mm + ":" + ss;
    assert r[..|r| - 3] == mm;
    assert r[|r| - 2..] == ss;
  }

  /** The rendered clock determines the number of seconds: minutes * 60 plus
      the seconds part gives the input back. */
  lemma FormatTimeRoundTrip(seconds: nat)
    ensures ParseClock(FormatTime(seconds)).Some?
    ensures var (m, s) := ParseClock(FormatTime(seconds)).value;
            s < 60 && m * 60 + s == seconds
  {
  }

  /** Two different times never render the same. */
  lemma FormatTimeInjective(a: nat, b: nat)
    requires FormatTime(a) == FormatTime(b)
    ensures a == b
  {
    FormatTimeRoundTrip(a);
    FormatTimeRoundTrip(b);
  }
}

/** The player's own finishing time (src/pages/UserFinishingTime.tsx): the
    same rendering, with a placeholder when no number is available. */
module FinishingTime {
  import opened Wrappers
  import opened Text
  import Leaderboard

  /** What `fastestTime` holds when it reaches the page: nothing, a value that
      is not a number (or NaN), or a number of seconds. */
  datatype Reading = Missing | NotANumber | Seconds(n: nat)

  const Placeholder: string := "--:--"

  /** `formatTime(seconds | undefined)`. */
  function FormatTime(t: Reading): (r: string)
    ensures !t.Seconds? ==> r == Placeholder
    ensures t.Seconds? ==> r == Leaderboard.FormatTime(t.n)
    ensures t.Seconds? ==> Leaderboard.ParseClock(r) == Some((t.n / 60, t.n % 60))
    ensures |r| >= 5
    ensures (!t.Seconds? || t.n < 6000) ==> |r| == 5
  {
    match t
    case Seconds(n) => Leaderboard.FormatTime(n)
    case _ => Placeholder
  }

  /** The placeholder has the shape of a clock: five characters with the
      colon in the middle. */
  lemma PlaceholderShape()
    ensures |Placeholder| == 5 && Placeholder[2] == ':' && Placeholder[4] == '-'
  {
  }

  /** The placeholder does not read back as a clock: its seconds part is
      not made of digits. */
  lemma PlaceholderIsNoClock()
    ensures Leaderboard.ParseClock(Placeholder).None?
  {
    PlaceholderShape();
    var secs := Placeholder[|Placeholder| - 2..];
    assert secs[1] == Placeholder[4];
    assert !IsDigit(secs[1]);
  }

  /** The seconds part of a recorded time is two characters after a colon:
      the colon is third from last. */
  lemma ClockColon(n: nat)
    ensures var r := FormatTime(Seconds(n)); |r| >= 5 && r[|r| - 3] == ':'
  {
    var r := FormatTime(Seconds(n));
    assert Leaderboard.ParseClock(r).Some?;
  }

  /** So it is in the placeholder. */
  lemma PlaceholderColon(t: Reading)
    requires !t.Seconds?
    ensures var r := FormatTime(t); |r| >= 5 && r[|r| - 3] == ':'
  {
    PlaceholderShape();
  }

  /** A player with no time sees the placeholder on their own page, but
      the leaderboard shows them a clock. */
  lemma PagesDisagreeOnNoTime()
    ensures Leaderboard.FastestTimeCell(None) != FormatTime(Missing)
  {
    assert Leaderboard.ParseClock(Leaderboard.FastestTimeCell(None)).Some?;
    PlaceholderIsNoClock();
  }

  /** The placeholder is never the rendering of a time, so a missing time is
      always distinguishable from a recorded one. */
  lemma PlaceholderIsNoTime(n: nat)
    ensures FormatTime(Seconds(n)) != FormatTime(Missing)
  {
    assert Leaderboard.ParseClock(FormatTime(Seconds(n))).Some?;
    PlaceholderIsNoClock();
  }
}

/** The in-game clock (src/components/Game/GameTimer.tsx): a displayed
    string that an effect recomputes from the elapsed seconds while the game
    is active. */
module GameTimer {
  import opened Wrappers
  import opened Text
  import Leaderboard

  const InitialDisplay: string := "00:00"

  /** The effect: while the game is not active the display keeps its value;
      otherwise it shows the elapsed seconds as `mm:ss`. */
  function Refresh(shown: string, isGameActive: bool, elapsed: nat): (r: string)
    ensures !isGameActive ==> r == shown
    ensures isGameActive ==> r == Leaderboard.FormatTime(elapsed)
    ensures isGameActive ==> Leaderboard.ParseClock(r) == Some((elapsed / 60, elapsed % 60))
  {
    if !isGameActive then shown
    else
      var minutes := elapsed / 60;
      var seconds := elapsed % 60;
      Leaderboard.TwoDigits(minutes) + ":" + Leaderboard.TwoDigits(seconds)
  }

  /** The initial display is what the clock shows at zero elapsed seconds. */
  lemma InitialDisplayIsZero()
    ensures Refresh(InitialDisplay, true, 0) == InitialDisplay
  {
    Leaderboard.ZeroIsTwoZeros();
    assert Refresh(InitialDisplay, true, 0) == "00" + ":" + "00";
  }
}

=== FILE: questions.dfy ===
/** The fixed riddle bank every game plays through, in order
    (src/contexts/GameContext.tsx, `initialQuestions`). */
module Questions {
  import opened Text

  /** A riddle: its id, canonical answer and points. The wording is only
      displayed and is not modelled. */
  datatype Question = Question(id: nat, answer: string, points: nat)

  /** Only the letters a to z. */
  predicate IsLowerWord(s: string) {
    forall k :: 0 <= k < |s| ==> 'a' <= s[k] <= 'z'
  }

  /** A lower-case word has no upper-case letter and no space at either end. */
  lemma LowerWordIsNormal(s: string)
    requires IsLowerWord(s)
    ensures Trimmed(s)
    ensures forall k :: 0 <= k < |s| ==> !IsUpper(s[k])
  {
  }

  /** The canonical answer to riddle `n`. */
  function Answer(n: nat): string
  {
    match n
    case 1 => "treasure"
    case 2 => "echo"
    case 3 => "map"
    case 4 => "footsteps"
    case 5 => "breath"
    case 6 => "piano"
    case 7 => "towel"
    case 8 => "age"
    case 9 => "mirror"
    case _ => "gold"
  }

  /** The points riddle `n` is worth. */
  function Points(n: nat): nat
  {
    match n
    case 1 => 100
    case 2 => 150
    case 3 => 200
    case 4 => 120
    case 5 => 180
    case 6 => 150
    case 7 => 100
    case 8 => 120
    case 9 => 180
    case _ => 200
  }

  /** The riddle with id `n`. */
  function Riddle(n: nat): (q: Question)
    requires 1 <= n <= 10
    ensures q.id == n
    ensures q.points > 0
    ensures 0 < |q.answer|
  {
    Question(n, Answer(n), Points(n))
  }

  /** Every canonical answer is a lower-case word, so normalising it changes
      nothing. */
  lemma AnswersAreLowerWords(n: nat)
    requires 1 <= n <= 10
    ensures IsLowerWord(Riddle(n).answer)
  {
    match n
    case 1 => assert Answer(n) == ['t', 'r', 'e', 'a', 's', 'u', 'r', 'e'];
    case 2 => assert Answer(n) == ['e', 'c', 'h', 'o'];
    case 3 => assert Answer(n) == ['m', 'a', 'p'];
    case 4 => assert Answer(n) == ['f', 'o', 'o', 't', 's', 't', 'e', 'p', 's'];
    case 5 => assert Answer(n) == ['b', 'r', 'e', 'a', 't', 'h'];
    case 6 => assert Answer(n) == ['p', 'i', 'a', 'n', 'o'];
    case 7 => assert Answer(n) == ['t', 'o', 'w', 'e', 'l'];
    case 8 => assert Answer(n) == ['a', 'g', 'e'];
    case 9 => assert Answer(n) == ['m', 'i', 'r', 'r', 'o', 'r'];
    case _ => assert Answer(n) == ['g', 'o', 'l', 'd'];
  }

  /** `initialQuestions`: the ten riddles, ids 1 to 10 in order, each worth
      a positive number of points. */
  function Bank(): (qs: seq<Question>)
    ensures |qs| == 10
    ensures forall i :: 0 <= i < |qs| ==> qs[i].id == i + 1 && qs[i].points > 0
    ensures forall i :: 0 <= i < |qs| ==> qs[i] == Riddle(i + 1)
  {
    seq(10, i requires 0 <= i < 10 => Riddle(i + 1))
  }

  /** Every canonical answer in the bank is a non-empty lower-case word. */
  lemma BankAnswersAreLowerWords()
    ensures forall i :: 0 <= i < |Bank()| ==> 0 < |Bank()[i].answer| && IsLowerWord(Bank()[i].answer)
  {
    forall i | 0 <= i < |Bank()|
      ensures IsLowerWord(Bank()[i].answer)
    {
      AnswersAreLowerWords(i + 1);
    }
  }
}

=== FILE: ranking.dfy ===
/** The results list of a finished game (src/components/Game/GameRoom.tsx):
    the players sorted by completion time, a player with no time (or a time
    of 0) ranking as if they took 999 seconds. `Array.prototype.sort` is
    stable, so players with equal keys keep their roster order. */
module Ranking {
  import opened Wrappers
  import opened ClientGame

  const NoTimeKey: int := 999

  /** `player.completionTime || 999`. */
  function RankKey(p: Player): (k: int)
    ensures (p.completionTime.Some? && p.completionTime.value != 0) ==> k == p.completionTime.value
    ensures (p.completionTime.None? || p.completionTime.value == 0) ==> k == NoTimeKey
  {
    match p.completionTime
    case Some(t) => if t != 0 then t else NoTimeKey
    case None => NoTimeKey
  }

  predicate SortedByKey(ps: seq<Player>) {
    forall i, j :: 0 <= i < j < |ps| ==> RankKey(ps[i]) <= RankKey(ps[j])
  }

  /** The players of `ps` whose key is `k`, in their order in `ps`. */
  function WithKey(ps: seq<Player>, k: int): (r: seq<Player>)
    ensures |r| <= |ps|
  {
    if |ps| == 0 then []
    else (if RankKey(ps[0]) == k then [ps[0]] else []) + WithKey(ps[1..], k)
  }

  /** Puts `p` in front of the first player whose key is not smaller. */
  function Insert(p: Player, ps: seq<Player>): (r: seq<Player>)
    requires SortedByKey(ps)
    ensures SortedByKey(r)
    ensures multiset(r) == multiset(ps) + multiset{p}
    ensures forall k :: WithKey(r, k) == (if RankKey(p) == k then [p] else []) + WithKey(ps, k)
  {
    if |ps| == 0 then
      InsertFrontKeys(p, ps);
      assert [p] + ps == [p];
      [p]
    else if RankKey(p) <= RankKey(ps[0]) then
      InsertFrontKeys(p, ps);
      [p] + ps
    else
      var rest := Insert(p, ps[1..]);
      InsertBehindHead(p, ps, rest);
      HeadMultiset(p, ps, rest);
      [ps[0]] + rest
  }

  lemma InsertFrontKeys(p: Player, ps: seq<Player>)
    ensures forall k :: WithKey([p] + ps, k) == (if RankKey(p) == k then [p] else []) + WithKey(ps, k)
  {
    assert ([p] + ps)[1..] == ps;
  }

  /** The step case of `Insert`: `p` goes behind the head of `ps`, whose key
      is smaller. */
  lemma InsertBehindHead(p: Player, ps: seq<Player>, rest: seq<Player>)
    requires SortedByKey(ps) && |ps| > 0 && RankKey(ps[0]) < RankKey(p)
    requires SortedByKey(rest)
    requires multiset(rest) == multiset(ps[1..]) + multiset{p}
    requires forall k :: WithKey(rest, k) == (if RankKey(p) == k then [p] else []) + WithKey(ps[1..], k)
    ensures SortedByKey([ps[0]] + rest)
    ensures forall k :: WithKey([ps[0]] + rest, k) == (if RankKey(p) == k then [p] else []) + WithKey(ps, k)
  {
    HeadBelowRest(p, ps, rest);
    forall k
      ensures WithKey([ps[0]] + rest, k) == (if RankKey(p) == k then [p] else []) + WithKey(ps, k)
    {
      BehindHeadKey(p, ps, rest, k);
    }
  }

  /** One key of `InsertBehindHead`. */
  lemma BehindHeadKey(p: Player, ps: seq<Player>, rest: seq<Player>, k: int)
    requires |ps| > 0 && RankKey(ps[0]) < RankKey(p)
    requires WithKey(rest, k) == (if RankKey(p) == k then [p] else []) + WithKey(ps[1..], k)
    ensures WithKey([ps[0]] + rest, k) == (if RankKey(p) == k then [p] else []) + WithKey(ps, k)
  {
    assert ps == [ps[0]] + ps[1..];
    HeadKeys(ps[0], rest, k);
    HeadKeys(ps[0], ps[1..], k);
    var w := WithKey(ps[1..], k);
    if RankKey(p) == k {
      assert RankKey(ps[0]) != k;
      assert WithKey(ps, k) == w;
    } else if RankKey(ps[0]) == k {
      assert WithKey([ps[0]] + rest, k) == [ps[0]] + w;
      assert WithKey(ps, k) == [ps[0]] + w;
    } else {
      assert WithKey(ps, k) == w;
    }
  }

  lemma HeadMultiset(p: Player, ps: seq<Player>, rest: seq<Player>)
    requires |ps| > 0
    requires multiset(rest) == multiset(ps[1..]) + multiset{p}
    ensures multiset([ps[0]] + rest) == multiset(ps) + multiset{p}
  {
    assert ps == [ps[0]] + ps[1..];
  }

  lemma HeadKeys(h: Player, ps: seq<Player>, k: int)
    ensures WithKey([h] + ps, k) == (if RankKey(h) == k then [h] else []) + WithKey(ps, k)
  {
    assert ([h] + ps)[1..] == ps;
  }

  lemma HeadBelowRest(p: Player, ps: seq<Player>, rest: seq<Player>)
    requires SortedByKey(ps) && |ps| > 0 && RankKey(ps[0]) < RankKey(p)
    requires SortedByKey(rest)
    requires multiset(rest) == multiset(ps[1..]) + multiset{p}
    ensures SortedByKey([ps[0]] + rest)
  {
    var r := [ps[0]] + rest;
    forall j | 0 <= j < |rest|
      ensures RankKey(ps[0]) <= RankKey(rest[j])
    {
      assert rest[j] in multiset(rest);
      if rest[j] != p {
        assert rest[j] in multiset(ps[1..]);
        assert rest[j] in ps[1..];
        var m :| 0 <= m < |ps[1..]| && ps[1..][m] == rest[j];
        assert ps[m + 1] == rest[j];
      }
    }
    forall i, j | 0 <= i < j < |r|
      ensures RankKey(r[i]) <= RankKey(r[j])
    {
      if i > 0 {
        assert r[i] == rest[i - 1] && r[j] == rest[j - 1];
      } else {
        assert r[j] == rest[j - 1];
      }
    }
  }

  /** The results ordering: sorted by key, a permutation of the roster, and
      stable, i.e. for every key the players with that key appear in roster
      order. */
  function SortByCompletion(ps: seq<Player>): (r: seq<Player>)
    ensures SortedByKey(r)
    ensures multiset(r) == multiset(ps)
    ensures forall k :: WithKey(r, k) == WithKey(ps, k)
  {
    if |ps| == 0 then []
    else
      assert ps == [ps[0]] + ps[1..];
      Insert(ps[0], SortByCompletion(ps[1..]))
  }

  /** A player with no recorded time ranks no earlier than anyone with a time
      under 999 seconds. */
  lemma UntimedRankAfterFast(ps: seq<Player>, i: nat, j: nat)
    requires i < |SortByCompletion(ps)| && j < |SortByCompletion(ps)|
    requires SortByCompletion(ps)[i].completionTime.None?
    requires var t := SortByCompletion(ps)[j].completionTime;
             t.Some? && t.value != 0 && t.value < NoTimeKey
    ensures j < i
  {
  }
}

=== FILE: server.dfy ===
/** The socket handlers of the game server (server/server.js) as pure
    transitions. Each takes the state, the calling connection's id (`conn`,
    the socket id), the payload and, where the handler talks to the durable
    store, whether the store answers; it returns the next state and the
    events sent. */
module Server {
  import opened Wrappers
  import opened ServerState

  const CreateFailed: string := "Failed to create room"
  const JoinFailed: string := "Failed to join room"
  const RoomNotFound: string := "Room not found"

  /** The insert of a durable room with this code is refused: the store is
      down, the code is empty (a required field) or it is already taken
      (a unique index, whatever the room's `isActive`). */
  predicate CreateRefused(st: State, code: string, store: Store) {
    store.Failing? || code == "" || code in st.rooms
  }

  /** `createRoom`. On refusal the caller gets an error and nothing changes;
      otherwise the code gets an open durable room and a fresh session,
      replacing any session already registered under it. */
  function CreateRoom(st: State, code: string, store: Store): (r: Step)
    ensures CreateRefused(st, code, store) ==>
              r == Step(st, [Message(Sender, Error(CreateFailed))])
    ensures !CreateRefused(st, code, store) ==>
              && r.state.sessions == st.sessions[code := EmptySession()]
              && r.state.rooms == st.rooms[code := RoomRecord(true, [])]
              && r.state.stats == st.stats && r.state.bound == st.bound
              && r.out == [Message(Sender, RoomCreated(code))]
  {
    if CreateRefused(st, code, store) then Step(st, [Message(Sender, Error(CreateFailed))])
    else
      Step(st.(sessions := st.sessions[code := EmptySession()],
               rooms := st.rooms[code := RoomRecord(true, [])]),
           [Message(Sender, RoomCreated(code))])
  }

  /** The room `joinRoom` accepts: a durable room with this code that is open. */
  predicate OpenRoom(st: State, code: string) {
    code in st.rooms && st.rooms[code].isActive
  }

  /** The live session for `code`, created empty if there is none. */
  function SessionOrEmpty(st: State, code: string): Session {
    if code in st.sessions then st.sessions[code] else EmptySession()
  }

  /** `joinRoom`. Without an open room the caller gets an error and nothing
      changes. Otherwise the user gets a durable player record if it had
      none, joins the durable room's member log if absent, is appended to
      the live roster if its id is absent, and the connection is bound to
      the room. */
  function JoinRoom(st: State, conn: string, code: string, userId: string, username: string, store: Store): (r: Step)
    ensures store.Failing? ==> r == Step(st, [Message(Sender, Error(JoinFailed))])
    ensures store.Available? && !OpenRoom(st, code) ==>
              r == Step(st, [Message(Sender, Error(RoomNotFound))])
    ensures store.Available? && OpenRoom(st, code) ==>
              var before := SessionOrEmpty(st, code).players;
              && code in r.state.sessions
              && r.state.sessions == st.sessions[code := r.state.sessions[code]]
              && r.state.sessions[code] == SessionOrEmpty(st, code).(players := r.state.sessions[code].players)
              && r.state.sessions[code].players ==
                   (if FindIndex(before, userId) == -1 then before + [NewPlayer(userId, username)] else before)
              && r.state.bound == st.bound[conn := code]
              && userId in r.state.stats
              && (userId in st.stats ==> r.state.stats == st.stats)
              && (userId !in st.stats ==> r.state.stats == st.stats[userId := PlayerRecord(username, 0, 0, None)])
              && r.state.rooms == st.rooms[code := st.rooms[code].(members :=
                   if userId in st.rooms[code].members then st.rooms[code].members
                   else st.rooms[code].members + [userId])]
              && r.out == [Message(Others, PlayerJoined(NewPlayer(userId, username))),
                           Message(Sender, RoomState(r.state.sessions[code]))]
  {
    if store.Failing? then Step(st, [Message(Sender, Error(JoinFailed))])
    else if !OpenRoom(st, code) then Step(st, [Message(Sender, Error(RoomNotFound))])
    else
      var stats := if userId in st.stats then st.stats
                   else st.stats[userId := PlayerRecord(username, 0, 0, None)];
      var room := st.rooms[code];
      var room' := if userId in room.members then room else room.(members := room.members + [userId]);
      var session := SessionOrEmpty(st, code);
      var session' := if FindIndex(session.players, userId) == -1
                      then session.(players := session.players + [NewPlayer(userId, username)])
                      else session;
      Step(State(st.sessions[code := session'], st.rooms[code := room'], stats, st.bound[conn := code]),
           [Message(Others, PlayerJoined(NewPlayer(userId, username))),
            Message(Sender, RoomState(session'))])
  }

  /** `playerReady`. The first roster entry with the id becomes ready and
      nothing else changes; the others hear of it, and everyone is told the
      game starts when the whole roster, of more than one, is ready. An
      unknown room or id changes nothing. */
  function PlayerReadyUp(st: State, code: string, playerId: string): (r: Step)
    ensures code !in st.sessions ==> r == Step(st, [])
    ensures code in st.sessions ==> code in r.state.sessions
    ensures code in st.sessions && FindIndex(st.sessions[code].players, playerId) == -1 ==>
              r == Step(st, [])
    ensures code in st.sessions && FindIndex(st.sessions[code].players, playerId) != -1 ==>
              var ps := st.sessions[code].players;
              var i := FindIndex(ps, playerId);
              var ps' := r.state.sessions[code].players;
              && r.state == st.(sessions := st.sessions[code := st.sessions[code].(players := ps')])
              && |ps'| == |ps|
              && ps'[i] == ps[i].(isReady := true)
              && (forall j :: 0 <= j < |ps| && j != i ==> ps'[j] == ps[j])
              && r.out == [Message(Others, PlayerReady(playerId))]
                          + (if AllReady(ps') && |ps'| > 1 then [Message(Everyone, GameStart)] else [])
  {
    if code !in st.sessions then Step(st, [])
    else
      var s := st.sessions[code];
      var i := FindIndex(s.players, playerId);
      if i == -1 then Step(st, [])
      else
        var ps := s.players[i := s.players[i].(isReady := true)];
        var start := if AllReady(ps) && |ps| > 1 then [Message(Everyone, GameStart)] else [];
        Step(st.(sessions := st.sessions[code := s.(players := ps)]),
             [Message(Others, PlayerReady(playerId))] + start)
  }

  /** `startCountdown`: the session is marked active at once and everyone is
      told the game starts. */
  function StartCountdown(st: State, code: string): (r: Step)
    ensures code !in st.sessions ==> r == Step(st, [])
    ensures code in st.sessions ==>
              && r.state == st.(sessions := st.sessions[code := st.sessions[code].(isGameActive := true)])
              && r.out == [Message(Everyone, GameStart)]
  {
    if code !in st.sessions then Step(st, [])
    else
      Step(st.(sessions := st.sessions[code := st.sessions[code].(isGameActive := true)]),
           [Message(Everyone, GameStart)])
  }

  /** `correctAnswer`: the roster entry whose id is the connection id gains
      the fixed award, and everyone gets the scores. The question index of
      the payload plays no part, and the session's index does not move. */
  function CorrectAnswer(st: State, code: string, conn: string, questionIndex: int): (r: Step)
    ensures code !in st.sessions ==> r == Step(st, [])
    ensures code in st.sessions ==> code in r.state.sessions
    ensures code in st.sessions && FindIndex(st.sessions[code].players, conn) == -1 ==>
              r == Step(st, [])
    ensures code in st.sessions && FindIndex(st.sessions[code].players, conn) != -1 ==>
              var ps := st.sessions[code].players;
              var i := FindIndex(ps, conn);
              var ps' := r.state.sessions[code].players;
              && r.state == st.(sessions := st.sessions[code := st.sessions[code].(players := ps')])
              && |ps'| == |ps|
              && ps'[i] == ps[i].(score := ps[i].score + PointsPerCorrectAnswer)
              && (forall j :: 0 <= j < |ps| && j != i ==> ps'[j] == ps[j])
              && r.out == [Message(Everyone, UpdateScores(ps'))]
  {
    if code !in st.sessions then Step(st, [])
    else
      var s := st.sessions[code];
      var i := FindIndex(s.players, conn);
      if i == -1 then Step(st, [])
      else
        var ps := s.players[i := s.players[i].(score := s.players[i].score + PointsPerCorrectAnswer)];
        Step(st.(sessions := st.sessions[code := s.(players := ps)]), [Message(Everyone, UpdateScores(ps))])
  }

  /** `!fastestTime || time < fastestTime`. */
  predicate BeatsFastest(fastest: Option<int>, time: int) {
    fastest.None? || fastest.value == 0 || time < fastest.value
  }

  /** A durable record after a completed game with this score and time:
      one more game, the better high score, and the time as fastest when
      there was none (or 0) or it beats the old one. */
  function RecordCompletion(rec: PlayerRecord, score: int, time: int): (r: PlayerRecord)
    ensures r.gamesCompleted == rec.gamesCompleted + 1
    ensures r.highScore >= rec.highScore && r.highScore >= score
    ensures r.highScore == rec.highScore || r.highScore == score
    ensures r.fastestTime == if BeatsFastest(rec.fastestTime, time) then Some(time) else rec.fastestTime
    ensures r.username == rec.username
  {
    var high := if rec.highScore >= score then rec.highScore else score;
    var fastest := match rec.fastestTime
                   case None => Some(time)
                   case Some(prev) => if prev == 0 || time < prev then Some(time) else rec.fastestTime;
    rec.(gamesCompleted := rec.gamesCompleted + 1, highScore := high, fastestTime := fastest)
  }

  /** `completeGame`. The roster entry whose id is the connection id gets
      the reported time, overwriting any earlier one. When the store answers,
      the durable record under that id (if any) takes the result, and
      everyone is told the game ended once every roster entry has a truthy
      time. When the store fails, the time is still set but the stats and the
      end-of-game event are lost. */
  function CompleteGame(st: State, code: string, conn: string, time: int, store: Store): (r: Step)
    ensures code !in st.sessions ==> r == Step(st, [])
    ensures code in st.sessions ==> code in r.state.sessions
    ensures code in st.sessions && FindIndex(st.sessions[code].players, conn) == -1 ==>
              r == Step(st, [])
    ensures code in st.sessions && FindIndex(st.sessions[code].players, conn) != -1 ==>
              var ps := st.sessions[code].players;
              var i := FindIndex(ps, conn);
              var ps' := r.state.sessions[code].players;
              && r.state.sessions == st.sessions[code := st.sessions[code].(players := ps')]
              && |ps'| == |ps|
              && ps'[i] == ps[i].(completionTime := Some(time))
              && (forall j :: 0 <= j < |ps| && j != i ==> ps'[j] == ps[j])
              && r.state.rooms == st.rooms && r.state.bound == st.bound
              && (store.Failing? || conn !in st.stats ==> r.state.stats == st.stats)
              && (store.Available? && conn in st.stats ==>
                    r.state.stats == st.stats[conn := RecordCompletion(st.stats[conn], ps[i].score, time)])
              && r.out == (if store.Available? && AllCompleted(ps') then [Message(Everyone, GameEnd(ps'))] else [])
  {
    if code !in st.sessions then Step(st, [])
    else
      var s := st.sessions[code];
      var i := FindIndex(s.players, conn);
      if i == -1 then Step(st, [])
      else
        var p := s.players[i].(completionTime := Some(time));
        var ps := s.players[i := p];
        var st' := st.(sessions := st.sessions[code := s.(players := ps)]);
        if store.Failing? then Step(st', [])
        else
          var stats := if p.id in st.stats then st.stats[p.id := RecordCompletion(st.stats[p.id], p.score, time)]
                       else st.stats;
          Step(st'.(stats := stats), if AllCompleted(ps) then [Message(Everyone, GameEnd(ps))] else [])
  }

  /** A roster entry after a reset: same id and name, not ready, no score,
      no time. */
  function ResetPlayer(p: SessionPlayer): SessionPlayer {
    p.(isReady := false, score := 0, completionTime := None)
  }

  /** `resetGame`: the session goes back to its lobby values and everyone
      gets the reset session. */
  function ResetGame(st: State, code: string): (r: Step)
    ensures code !in st.sessions ==> r == Step(st, [])
    ensures code in st.sessions ==> code in r.state.sessions
    ensures code in st.sessions ==>
              var ps := st.sessions[code].players;
              var s' := r.state.sessions[code];
              && r.state == st.(sessions := st.sessions[code := s'])
              && !s'.isGameActive && s'.currentQuestionIndex == 0
              && |s'.players| == |ps|
              && (forall j :: 0 <= j < |ps| ==>
                    && s'.players[j].id == ps[j].id && s'.players[j].username == ps[j].username
                    && !s'.players[j].isReady && s'.players[j].score == 0
                    && s'.players[j].completionTime.None?)
              && r.out == [Message(Everyone, GameReset(s'))]
  {
    if code !in st.sessions then Step(st, [])
    else
      var s := st.sessions[code];
      var s' := Session(seq(|s.players|, j requires 0 <= j < |s.players| => ResetPlayer(s.players[j])), false, 0);
      Step(st.(sessions := st.sessions[code := s']), [Message(Everyone, GameReset(s'))])
  }

  /** `handlePlayerDisconnect(socket, roomCode)`. An empty code or one with
      no live session is ignored. Otherwise every roster entry whose id is
      the connection id goes, the others hear that it left, and a roster left
      empty takes the session with it and closes the durable room (unless the
      store fails, which only loses that update). */
  function RemovePlayer(st: State, conn: string, code: string, store: Store): (r: Step)
    ensures code == "" || code !in st.sessions ==> r == Step(st, [])
    ensures code != "" && code in st.sessions ==>
              var left := RemoveId(st.sessions[code].players, conn);
              && r.out == [Message(Others, PlayerLeft(conn))]
              && r.state.stats == st.stats && r.state.bound == st.bound
              && (|left| > 0 ==>
                    && r.state.sessions == st.sessions[code := st.sessions[code].(players := left)]
                    && r.state.rooms == st.rooms)
              && (|left| == 0 ==>
                    && r.state.sessions == st.sessions - {code}
                    && (store.Available? && code in st.rooms ==>
                          r.state.rooms == st.rooms[code := st.rooms[code].(isActive := false)])
                    && (store.Failing? || code !in st.rooms ==> r.state.rooms == st.rooms))
  {
    if code == "" || code !in st.sessions then Step(st, [])
    else
      var s := st.sessions[code];
      var left := RemoveId(s.players, conn);
      var out := [Message(Others, PlayerLeft(conn))];
      if |left| > 0 then Step(st.(sessions := st.sessions[code := s.(players := left)]), out)
      else
        var rooms := if store.Available? && code in st.rooms
                     then st.rooms[code := st.rooms[code].(isActive := false)]
                     else st.rooms;
        Step(st.(sessions := st.sessions - {code}, rooms := rooms), out)
  }

  /** The room a connection is bound to, or "" (falsy) if it never joined. */
  function BoundRoom(st: State, conn: string): string {
    if conn in st.bound then st.bound[conn] else ""
  }

  /** The inbound events, with their payloads. */
  datatype Inbound =
    | CreateRoomReq(code: string)
    | JoinRoomReq(code: string, userId: string, username: string)
    | PlayerReadyReq(code: string, playerId: string)
    | StartCountdownReq(code: string)
    | CorrectAnswerReq(code: string, questionIndex: int)
    | CompleteGameReq(code: string, time: int)
    | ResetGameReq(code: string)
    | LeaveRoomReq(code: string)
    | DisconnectReq

  /** Dispatch of one inbound event from connection `conn`. A leave uses the
      code in its payload; a transport disconnect uses the code the
      connection was bound to by its last join. Only a create or a join can
      open a session, add a durable room or bind a connection; a connection
      that never joined disconnects without effect. */
  function Handle(st: State, conn: string, ev: Inbound, store: Store): (r: Step)
    ensures !ev.CreateRoomReq? && !ev.JoinRoomReq? ==>
              && r.state.sessions.Keys <= st.sessions.Keys
              && r.state.rooms.Keys == st.rooms.Keys
              && r.state.bound == st.bound
    ensures ev.DisconnectReq? && conn !in st.bound ==> r == Step(st, [])
  {
    match ev
    case CreateRoomReq(code) => CreateRoom(st, code, store)
    case JoinRoomReq(code, userId, username) => JoinRoom(st, conn, code, userId, username, store)
    case PlayerReadyReq(code, playerId) => PlayerReadyUp(st, code, playerId)
    case StartCountdownReq(code) => StartCountdown(st, code)
    case CorrectAnswerReq(code, questionIndex) => CorrectAnswer(st, code, conn, questionIndex)
    case CompleteGameReq(code, time) => CompleteGame(st, code, conn, time, store)
    case ResetGameReq(code) => ResetGame(st, code)
    case LeaveRoomReq(code) => RemovePlayer(st, conn, code, store)
    case DisconnectReq => RemovePlayer(st, conn, BoundRoom(st, conn), store)
  }
}

=== FILE: server_props.dfy ===
/** Properties of the server handlers (server/server.js) that relate several
    calls, or a call to the registry invariant. */
module ServerProps {
  import opened Wrappers
  import opened ServerState
  import opened Server

  // ---------------------------------------------------------------------------
  // The registry invariant
  // ---------------------------------------------------------------------------

  /** Two rosters with the same ids at the same positions. */
  predicate SameIds(ps: seq<SessionPlayer>, qs: seq<SessionPlayer>) {
    |ps| == |qs| && forall j :: 0 <= j < |ps| ==> ps[j].id == qs[j].id
  }

  lemma SameIdsKeepUnique(ps: seq<SessionPlayer>, qs: seq<SessionPlayer>)
    requires SameIds(ps, qs) && UniqueIds(ps)
    ensures UniqueIds(qs)
  {
    forall i, j | 0 <= i < j < |qs|
      ensures qs[i].id != qs[j].id
    {
      assert ps[i].id == qs[i].id && ps[j].id == qs[j].id;
    }
  }

  /** Filtering a roster keeps its ids unique. */
  lemma {:induction false} RemoveIdKeepsUnique(ps: seq<SessionPlayer>, id: string)
    requires UniqueIds(ps)
    ensures UniqueIds(RemoveId(ps, id))
  {
    if |ps| > 0 {
      var rest := RemoveId(ps[1..], id);
      TailUnique(ps);
      RemoveIdKeepsUnique(ps[1..], id);
      if ps[0].id != id {
        HeadNotInFilteredTail(ps, id);
        ConsUnique(ps[0], rest);
      }
    }
  }

  /** A head whose id the (unique) tail lacks keeps ids unique. */
  lemma ConsUnique(h: SessionPlayer, rest: seq<SessionPlayer>)
    requires UniqueIds(rest)
    requires forall x :: x in rest ==> x.id != h.id
    ensures UniqueIds([h] + rest)
  {
    var r := [h] + rest;
    forall i, j | 0 <= i < j < |r|
      ensures r[i].id != r[j].id
    {
      assert r[j] == rest[j - 1];
      assert rest[j - 1] in rest;
      if i > 0 {
        assert r[i] == rest[i - 1];
      }
    }
  }

  lemma TailUnique(ps: seq<SessionPlayer>)
    requires UniqueIds(ps) && |ps| > 0
    ensures UniqueIds(ps[1..])
  {
    forall i, j | 0 <= i < j < |ps| - 1
      ensures ps[1..][i].id != ps[1..][j].id
    {
      assert ps[1..][i] == ps[i + 1] && ps[1..][j] == ps[j + 1];
    }
  }

  lemma HeadNotInFilteredTail(ps: seq<SessionPlayer>, id: string)
    requires UniqueIds(ps) && |ps| > 0
    ensures forall x :: x in RemoveId(ps[1..], id) ==> x.id != ps[0].id
  {
    forall x | x in RemoveId(ps[1..], id)
      ensures x.id != ps[0].id
    {
      assert x in ps[1..];
      var m :| 0 <= m < |ps[1..]| && ps[1..][m] == x;
      assert ps[m + 1] == x;
    }
  }

  /** Appending an id the roster lacks keeps ids unique. */
  lemma AppendFreshKeepsUnique(ps: seq<SessionPlayer>, p: SessionPlayer)
    requires UniqueIds(ps) && FindIndex(ps, p.id) == -1
    ensures UniqueIds(ps + [p])
  {
    var r := ps + [p];
    forall i, j | 0 <= i < j < |r|
      ensures r[i].id != r[j].id
    {
      if j == |ps| {
        assert r[i] == ps[i];
      } else {
        assert r[i] == ps[i] && r[j] == ps[j];
      }
    }
  }

  lemma JoinRoomKeepsValid(st: State, conn: string, code: string, userId: string, username: string, store: Store)
    requires Valid(st)
    ensures Valid(JoinRoom(st, conn, code, userId, username, store).state)
  {
    if store.Available? && OpenRoom(st, code) {
      var before := SessionOrEmpty(st, code).players;
      if FindIndex(before, userId) == -1 {
        AppendFreshKeepsUnique(before, NewPlayer(userId, username));
      }
    }
  }

  /** A roster rewrite that keeps the ids in place keeps the invariant. */
  lemma RewriteKeepsValid(st: State, st': State, code: string)
    requires Valid(st) && code in st.sessions
    requires st'.rooms == st.rooms
    requires st'.sessions.Keys == st.sessions.Keys
    requires forall c :: c in st.sessions && c != code ==> st'.sessions[c] == st.sessions[c]
    requires SameIds(st.sessions[code].players, st'.sessions[code].players)
    ensures Valid(st')
  {
    SameIdsKeepUnique(st.sessions[code].players, st'.sessions[code].players);
  }

  lemma RemovePlayerKeepsValid(st: State, conn: string, code: string, store: Store)
    requires Valid(st)
    ensures Valid(RemovePlayer(st, conn, code, store).state)
  {
    if code != "" && code in st.sessions {
      RemoveIdKeepsUnique(st.sessions[code].players, conn);
    }
  }

  lemma ReadyKeepsValid(st: State, code: string, playerId: string)
    requires Valid(st)
    ensures Valid(PlayerReadyUp(st, code, playerId).state)
  {
    if code in st.sessions && FindIndex(st.sessions[code].players, playerId) != -1 {
      RewriteKeepsValid(st, PlayerReadyUp(st, code, playerId).state, code);
    }
  }

  lemma AnswerKeepsValid(st: State, code: string, conn: string, questionIndex: int)
    requires Valid(st)
    ensures Valid(CorrectAnswer(st, code, conn, questionIndex).state)
  {
    if code in st.sessions && FindIndex(st.sessions[code].players, conn) != -1 {
      RewriteKeepsValid(st, CorrectAnswer(st, code, conn, questionIndex).state, code);
    }
  }

  lemma CompleteKeepsValid(st: State, code: string, conn: string, time: int, store: Store)
    requires Valid(st)
    ensures Valid(CompleteGame(st, code, conn, time, store).state)
  {
    if code in st.sessions && FindIndex(st.sessions[code].players, conn) != -1 {
      var st' := CompleteGame(st, code, conn, time, store).state;
      RewriteKeepsValid(st, st'.(stats := st.stats), code);
    }
  }

  lemma ResetKeepsValid(st: State, code: string)
    requires Valid(st)
    ensures Valid(ResetGame(st, code).state)
  {
    if code in st.sessions {
      RewriteKeepsValid(st, ResetGame(st, code).state, code);
    }
  }

  /** Every handler keeps the registry invariant: live sessions belong to
      open durable rooms and rosters never hold an id twice. */
  lemma HandleKeepsValid(st: State, conn: string, ev: Inbound, store: Store)
    requires Valid(st)
    ensures Valid(Handle(st, conn, ev, store).state)
  {
    match ev
    case CreateRoomReq(code) =>
    case JoinRoomReq(code, userId, username) =>
      JoinRoomKeepsValid(st, conn, code, userId, username, store);
    case PlayerReadyReq(code, playerId) =>
      ReadyKeepsValid(st, code, playerId);
    case StartCountdownReq(code) =>
    case CorrectAnswerReq(code, questionIndex) =>
      AnswerKeepsValid(st, code, conn, questionIndex);
    case CompleteGameReq(code, time) =>
      CompleteKeepsValid(st, code, conn, time, store);
    case ResetGameReq(code) =>
      ResetKeepsValid(st, code);
    case LeaveRoomReq(code) =>
      RemovePlayerKeepsValid(st, conn, code, store);
    case DisconnectReq =>
      RemovePlayerKeepsValid(st, conn, BoundRoom(st, conn), store);
  }

  /** Applies a sequence of (connection, event, store) arrivals in order. */
  function Run(st: State, events: seq<(string, Inbound, Store)>): State
    decreases |events|
  {
    if |events| == 0 then st
    else Run(Handle(st, events[0].0, events[0].1, events[0].2).state, events[1..])
  }

  /** The invariant holds after any sequence of events from the start. */
  lemma {:induction false} RunKeepsValid(st: State, events: seq<(string, Inbound, Store)>)
    requires Valid(st)
    ensures Valid(Run(st, events))
    decreases |events|
  {
    if |events| > 0 {
      HandleKeepsValid(st, events[0].0, events[0].1, events[0].2);
      RunKeepsValid(Handle(st, events[0].0, events[0].1, events[0].2).state, events[1..]);
    }
  }

  // ---------------------------------------------------------------------------
  // Joining
  // ---------------------------------------------------------------------------

  /** The first join to an open room with no live session creates one: not
      active, at question 0, with the joining user alone and unready; a new
      user gets a player record with no games, no score and no time. */
  lemma JoinCreatesSession(st: State, conn: string, code: string, userId: string, username: string)
    requires OpenRoom(st, code) && code !in st.sessions && userId !in st.stats
    ensures var r := JoinRoom(st, conn, code, userId, username, Available).state;
            && r.sessions[code] == Session([SessionPlayer(userId, username, false, 0, None)], false, 0)
            && r.stats[userId] == PlayerRecord(username, 0, 0, None)
  {
  }

  /** Joining again under the same user id, from any connection and with any
      name, changes no session, room or player record, and still answers
      with the roster snapshot. */
  lemma JoinIsIdempotent(st: State, conn: string, conn': string, code: string,
                         userId: string, username: string, username': string)
    requires OpenRoom(st, code)
    ensures var once := JoinRoom(st, conn, code, userId, username, Available).state;
            var twice := JoinRoom(once, conn', code, userId, username', Available);
            && twice.state.sessions == once.sessions
            && twice.state.rooms == once.rooms
            && twice.state.stats == once.stats
            && twice.out[1] == Message(Sender, RoomState(once.sessions[code]))
  {
    var once := JoinRoom(st, conn, code, userId, username, Available).state;
    var ps := once.sessions[code].players;
    assert OpenRoom(once, code);
    assert userId in once.rooms[code].members;
    assert FindIndex(ps, userId) != -1 by {
      var before := SessionOrEmpty(st, code).players;
      if FindIndex(before, userId) == -1 {
        assert ps[|ps| - 1].id == userId;
      } else {
        assert ps == before;
      }
    }
    RejoinChangesNothing(once, conn', code, userId, username');
  }

  /** A join by a user already in the roster, the member log and the player
      records changes none of them. */
  lemma RejoinChangesNothing(st: State, conn: string, code: string, userId: string, username: string)
    requires OpenRoom(st, code) && code in st.sessions
    requires FindIndex(st.sessions[code].players, userId) != -1
    requires userId in st.rooms[code].members && userId in st.stats
    ensures var r := JoinRoom(st, conn, code, userId, username, Available);
            && r.state.sessions == st.sessions
            && r.state.rooms == st.rooms
            && r.state.stats == st.stats
            && r.out[1] == Message(Sender, RoomState(st.sessions[code]))
  {
    var r := JoinRoom(st, conn, code, userId, username, Available);
    assert r.state.sessions[code] == st.sessions[code];
    assert r.state.rooms[code] == st.rooms[code];
  }

  /** The roster entries `joinRoom` creates for these users, in order. */
  function Entries(users: seq<(string, string)>): (r: seq<SessionPlayer>)
    ensures |r| == |users|
    ensures forall i :: 0 <= i < |users| ==> r[i] == NewPlayer(users[i].0, users[i].1)
  {
    seq(|users|, i requires 0 <= i < |users| => NewPlayer(users[i].0, users[i].1))
  }

  /** Each user joins `code` from a connection of its own id. */
  function JoinAll(st: State, code: string, users: seq<(string, string)>): State
    decreases |users|
  {
    if |users| == 0 then st
    else JoinAll(JoinRoom(st, users[0].0, code, users[0].0, users[0].1, Available).state, code, users[1..])
  }

  lemma AppendKeepsAbsent(ps: seq<SessionPlayer>, p: SessionPlayer, id: string)
    requires FindIndex(ps, id) == -1 && p.id != id
    ensures FindIndex(ps + [p], id) == -1
  {
    var qs := ps + [p];
    forall j | 0 <= j < |qs|
      ensures qs[j].id != id
    {
      if j < |ps| {
        assert qs[j] == ps[j];
      }
    }
  }

  /** The roster effect of one join: the entry is appended when the id is
      absent. */
  function AppendAbsent(ps: seq<SessionPlayer>, user: (string, string)): seq<SessionPlayer> {
    if FindIndex(ps, user.0) == -1 then ps + [NewPlayer(user.0, user.1)] else ps
  }

  function AppendAllAbsent(ps: seq<SessionPlayer>, users: seq<(string, string)>): seq<SessionPlayer>
    decreases |users|
  {
    if |users| == 0 then ps else AppendAllAbsent(AppendAbsent(ps, users[0]), users[1..])
  }

  /** A run of joins to an open room keeps it open and changes its roster as
      the joins' roster effects, one after another. */
  lemma {:induction false} JoinAllRoster(st: State, code: string, users: seq<(string, string)>)
    requires OpenRoom(st, code)
    ensures OpenRoom(JoinAll(st, code, users), code)
    ensures SessionOrEmpty(JoinAll(st, code, users), code).players
              == AppendAllAbsent(SessionOrEmpty(st, code).players, users)
    decreases |users|
  {
    if |users| > 0 {
      var next := JoinRoom(st, users[0].0, code, users[0].0, users[0].1, Available).state;
      assert OpenRoom(next, code);
      assert SessionOrEmpty(next, code).players == AppendAbsent(SessionOrEmpty(st, code).players, users[0]);
      JoinAllRoster(next, code, users[1..]);
    }
  }

  /** Distinct ids none of which is in the roster are each appended. */
  lemma {:induction false} DistinctAppendAll(ps: seq<SessionPlayer>, users: seq<(string, string)>)
    requires forall i, j :: 0 <= i < j < |users| ==> users[i].0 != users[j].0
    requires forall i :: 0 <= i < |users| ==> FindIndex(ps, users[i].0) == -1
    ensures AppendAllAbsent(ps, users) == ps + Entries(users)
    decreases |users|
  {
    if |users| == 0 {
      assert ps + Entries(users) == ps;
    } else {
      var mid := ps + [NewPlayer(users[0].0, users[0].1)];
      assert AppendAbsent(ps, users[0]) == mid;
      FreshAfterFirst(ps, users);
      DistinctAppendAll(mid, users[1..]);
      EntriesCons(ps, users);
    }
  }

  /** After the first of distinct fresh ids is appended, the remaining ids
      are still distinct and fresh. */
  lemma FreshAfterFirst(ps: seq<SessionPlayer>, users: seq<(string, string)>)
    requires |users| > 0
    requires forall i, j :: 0 <= i < j < |users| ==> users[i].0 != users[j].0
    requires forall i :: 0 <= i < |users| ==> FindIndex(ps, users[i].0) == -1
    ensures var rest, mid := users[1..], ps + [NewPlayer(users[0].0, users[0].1)];
            && (forall i, j :: 0 <= i < j < |rest| ==> rest[i].0 != rest[j].0)
            && (forall i :: 0 <= i < |rest| ==> FindIndex(mid, rest[i].0) == -1)
  {
    var rest := users[1..];
    forall i | 0 <= i < |rest|
      ensures FindIndex(ps + [NewPlayer(users[0].0, users[0].1)], rest[i].0) == -1
    {
      assert rest[i] == users[i + 1];
      AppendKeepsAbsent(ps, NewPlayer(users[0].0, users[0].1), users[i + 1].0);
    }
  }

  lemma EntriesCons(ps: seq<SessionPlayer>, users: seq<(string, string)>)
    requires |users| > 0
    ensures ps + [NewPlayer(users[0].0, users[0].1)] + Entries(users[1..]) == ps + Entries(users)
  {
    assert Entries(users) == [NewPlayer(users[0].0, users[0].1)] + Entries(users[1..]);
  }

  /** Joins under distinct ids that are not in the roster yet append one
      entry each, in call order: the roster grows by exactly the number of
      users. */
  lemma DistinctJoinsAppend(st: State, code: string, users: seq<(string, string)>)
    requires OpenRoom(st, code)
    requires forall i, j :: 0 <= i < j < |users| ==> users[i].0 != users[j].0
    requires forall i :: 0 <= i < |users| ==> FindIndex(SessionOrEmpty(st, code).players, users[i].0) == -1
    ensures SessionOrEmpty(JoinAll(st, code, users), code).players
              == SessionOrEmpty(st, code).players + Entries(users)
  {
    JoinAllRoster(st, code, users);
    DistinctAppendAll(SessionOrEmpty(st, code).players, users);
  }

  // ---------------------------------------------------------------------------
  // Ready-up, scoring, completion, reset
  // ---------------------------------------------------------------------------

  /** Ready flags only ever go up: no `playerReady` makes anyone not ready,
      in any session. */
  lemma ReadinessIsMonotonic(st: State, code: string, playerId: string, c: string, j: int)
    requires c in st.sessions && 0 <= j < |st.sessions[c].players|
    requires st.sessions[c].players[j].isReady
    ensures var st' := PlayerReadyUp(st, code, playerId).state;
            c in st'.sessions && j < |st'.sessions[c].players| && st'.sessions[c].players[j].isReady
  {
  }

  /** Three correct answers in a row from one connection add three awards to
      that player's score and nothing to anyone else's. */
  lemma ThreeCorrectAnswers(st: State, code: string, conn: string, q1: int, q2: int, q3: int)
    requires code in st.sessions && FindIndex(st.sessions[code].players, conn) != -1
    ensures var s1 := CorrectAnswer(st, code, conn, q1).state;
            var s2 := CorrectAnswer(s1, code, conn, q2).state;
            var s3 := CorrectAnswer(s2, code, conn, q3).state;
            var ps := st.sessions[code].players;
            var i := FindIndex(ps, conn);
            && code in s3.sessions
            && |s3.sessions[code].players| == |ps|
            && s3.sessions[code].players[i].score == ps[i].score + 3 * PointsPerCorrectAnswer
            && forall j :: 0 <= j < |ps| && j != i ==> s3.sessions[code].players[j] == ps[j]
  {
    var ps := st.sessions[code].players;
    var i := FindIndex(ps, conn);
    var s1 := CorrectAnswer(st, code, conn, q1).state;
    SameIdsFindIndex(ps, s1.sessions[code].players, conn);
    var s2 := CorrectAnswer(s1, code, conn, q2).state;
    SameIdsFindIndex(s1.sessions[code].players, s2.sessions[code].players, conn);
  }

  /** Rosters with the same ids find an id at the same place. */
  lemma {:induction false} SameIdsFindIndex(ps: seq<SessionPlayer>, qs: seq<SessionPlayer>, id: string)
    requires SameIds(ps, qs)
    ensures FindIndex(ps, id) == FindIndex(qs, id)
  {
    if |ps| > 0 {
      SameIdsFindIndex(ps[1..], qs[1..], id);
    }
  }

  /** `gameEnd` waits for everyone: while some other roster entry has no
      truthy time, a completion sends nothing. */
  lemma NoGameEndWhileSomeoneRuns(st: State, code: string, conn: string, time: int, store: Store, j: int)
    requires code in st.sessions
    requires 0 <= j < |st.sessions[code].players|
    requires st.sessions[code].players[j].id != conn
    requires !HasCompleted(st.sessions[code].players[j])
    ensures CompleteGame(st, code, conn, time, store).out == []
  {
    var ps := st.sessions[code].players;
    var i := FindIndex(ps, conn);
    if i != -1 {
      var ps' := CompleteGame(st, code, conn, time, store).state.sessions[code].players;
      assert ps'[j] == ps[j];
    }
  }

  /** ... and it fires as soon as the last one reports a non-zero time while
      the store answers. */
  lemma GameEndOnLastCompletion(st: State, code: string, conn: string, time: int)
    requires code in st.sessions && FindIndex(st.sessions[code].players, conn) != -1
    requires UniqueIds(st.sessions[code].players)
    requires time != 0
    requires forall j :: 0 <= j < |st.sessions[code].players| ==>
               st.sessions[code].players[j].id != conn ==> HasCompleted(st.sessions[code].players[j])
    ensures var r := CompleteGame(st, code, conn, time, Available);
            r.out == [Message(Everyone, GameEnd(r.state.sessions[code].players))]
  {
    var ps := st.sessions[code].players;
    var i := FindIndex(ps, conn);
    var ps' := CompleteGame(st, code, conn, time, Available).state.sessions[code].players;
    forall j | 0 <= j < |ps'|
      ensures HasCompleted(ps'[j])
    {
      if j != i {
        assert ps'[j] == ps[j];
        assert ps[j].id != ps[i].id;
      }
    }
  }

  /** One completion, with any time, never makes a recorded positive fastest
      time worse; with a positive time it stays positive. */
  lemma FastestTimeNeverWorsens(rec: PlayerRecord, score: int, time: int)
    requires rec.fastestTime.Some? && rec.fastestTime.value > 0
    ensures var r := RecordCompletion(rec, score, time);
            && r.fastestTime.Some? && r.fastestTime.value <= rec.fastestTime.value
            && (time > 0 ==> 0 < r.fastestTime.value)
  {
  }

  /** A completion reported with time 0 records 0 as the fastest time, and
      since 0 counts as no time at all, whatever time comes next replaces
      it. */
  lemma ZeroTimeClearsFastest(rec: PlayerRecord, s1: int, s2: int, time: int)
    requires rec.fastestTime.None? || rec.fastestTime.value >= 0
    ensures var first := RecordCompletion(rec, s1, 0);
            && first.fastestTime == Some(0)
            && RecordCompletion(first, s2, time).fastestTime == Some(time)
  {
  }

  /** So across two completions the fastest time can get worse: a recorded
      time f, then a completion with time 0, then one with a slower time t,
      leaves t. */
  lemma FastestTimeWorsensAfterZero(rec: PlayerRecord, s1: int, s2: int, t: int)
    requires rec.fastestTime.Some? && 0 < rec.fastestTime.value < t
    ensures var last := RecordCompletion(RecordCompletion(rec, s1, 0), s2, t);
            last.fastestTime.Some? && last.fastestTime.value > rec.fastestTime.value
  {
    ZeroTimeClearsFastest(rec, s1, s2, t);
  }

  /** Resetting twice is resetting once. */
  lemma ResetIsIdempotent(st: State, code: string)
    ensures ResetGame(ResetGame(st, code).state, code).state == ResetGame(st, code).state
  {
    if code in st.sessions {
      var s := ResetGame(st, code).state.sessions[code];
      var s2 := ResetGame(ResetGame(st, code).state, code).state.sessions[code];
      assert s2.players == s.players;
    }
  }

  // ---------------------------------------------------------------------------
  // Leaving
  // ---------------------------------------------------------------------------

  /** With unique ids, the filter that removes a player is the removal of
      that one position: the others keep their order. */
  lemma RemoveIdAtIndex(ps: seq<SessionPlayer>, i: int)
    requires UniqueIds(ps) && 0 <= i < |ps|
    ensures RemoveId(ps, ps[i].id) == ps[..i] + ps[i + 1..]
  {
    var pre, post := ps[..i], ps[i + 1..];
    OthersLackId(ps, i, pre, post);
    SplitAt(ps, i);
    RemoveIdMiddle(pre, ps[i], post);
  }

  lemma SplitAt(ps: seq<SessionPlayer>, i: int)
    requires 0 <= i < |ps|
    ensures ps == ps[..i] + ([ps[i]] + ps[i + 1..])
  {
  }

  /** With unique ids, no entry before or after position `i` has its id. */
  lemma OthersLackId(ps: seq<SessionPlayer>, i: int, pre: seq<SessionPlayer>, post: seq<SessionPlayer>)
    requires UniqueIds(ps) && 0 <= i < |ps|
    requires pre == ps[..i] && post == ps[i + 1..]
    ensures forall j :: 0 <= j < |pre| ==> pre[j].id != ps[i].id
    ensures forall j :: 0 <= j < |post| ==> post[j].id != ps[i].id
  {
    forall j | 0 <= j < |pre|
      ensures pre[j].id != ps[i].id
    {
      assert pre[j] == ps[j];
    }
    forall j | 0 <= j < |post|
      ensures post[j].id != ps[i].id
    {
      assert post[j] == ps[i + 1 + j];
    }
  }

  /** Removing the id of an entry that is alone in having it leaves what
      stood before and after it. */
  lemma RemoveIdMiddle(pre: seq<SessionPlayer>, p: SessionPlayer, post: seq<SessionPlayer>)
    requires forall j :: 0 <= j < |pre| ==> pre[j].id != p.id
    requires forall j :: 0 <= j < |post| ==> post[j].id != p.id
    ensures RemoveId(pre + ([p] + post), p.id) == pre + post
  {
    RemoveIdHead(p, post);
    RemoveIdDistributes(pre, [p] + post, p.id);
  }

  lemma RemoveIdHead(p: SessionPlayer, post: seq<SessionPlayer>)
    requires forall j :: 0 <= j < |post| ==> post[j].id != p.id
    ensures RemoveId([p] + post, p.id) == post
  {
    RemoveIdOne(p, p.id);
    RemoveIdDistributes([p], post, p.id);
    assert [] + post == post;
  }

  /** The filter works entry by entry, in order: filtering a concatenation
      filters each part in turn. With RemoveIdOne this fixes the result,
      order included, on every roster, unique ids or not. */
  lemma {:induction false} RemoveIdDistributes(a: seq<SessionPlayer>, b: seq<SessionPlayer>, id: string)
    ensures RemoveId(a + b, id) == RemoveId(a, id) + RemoveId(b, id)
    decreases |a|
  {
    if |a| == 0 {
      assert a + b == b;
    } else {
      assert (a + b)[0] == a[0];
      assert (a + b)[1..] == a[1..] + b;
      RemoveIdDistributes(a[1..], b, id);
    }
  }

  /** One entry is kept exactly when its id is another. */
  lemma RemoveIdOne(p: SessionPlayer, id: string)
    ensures RemoveId([p], id) == if p.id == id then [] else [p]
  {
  }

  /** When the last player leaves, the session is gone and the durable room
      closed, so a later join to that code is refused as not found and
      changes nothing: a room does not come back to life. */
  lemma LastLeaveClosesRoom(st: State, conn: string, code: string, conn': string, userId: string, username: string)
    requires Valid(st)
    requires code != "" && code in st.sessions
    requires forall j :: 0 <= j < |st.sessions[code].players| ==> st.sessions[code].players[j].id == conn
    ensures var after := RemovePlayer(st, conn, code, Available).state;
            && code !in after.sessions
            && code in after.rooms && !after.rooms[code].isActive
            && JoinRoom(after, conn', code, userId, username, Available)
                 == Step(after, [Message(Sender, Error(RoomNotFound))])
  {
  }

  /** A disconnect acts as a leave from the room the connection last joined. */
  lemma DisconnectLeavesBoundRoom(st: State, conn: string, store: Store)
    requires conn in st.bound
    ensures Handle(st, conn, DisconnectReq, store) == RemovePlayer(st, conn, st.bound[conn], store)
  {
  }

  /** A user alone in a fresh session who joined under their connection id
      and then disconnects takes the session with them, closes the durable
      room, and the others are told. */
  lemma JoinThenDisconnectClosesRoom(st: State, conn: string, code: string, username: string)
    requires OpenRoom(st, code) && code !in st.sessions && code != ""
    ensures var joined := JoinRoom(st, conn, code, conn, username, Available).state;
            var r := Handle(joined, conn, DisconnectReq, Available);
            && code !in r.state.sessions
            && code in r.state.rooms && !r.state.rooms[code].isActive
            && r.out == [Message(Others, PlayerLeft(conn))]
  {
    var joined := JoinRoom(st, conn, code, conn, username, Available).state;
    assert joined.bound[conn] == code;
    assert joined.sessions[code].players == [NewPlayer(conn, username)];
    assert RemoveId([NewPlayer(conn, username)], conn) == [];
  }

  /** Ready, countdown, answer, completion, reset and leave for a room with
      no live session are ignored: nothing changes and nothing is sent. */
  lemma UnknownRoomIgnored(st: State, conn: string, ev: Inbound, store: Store)
    requires ev.PlayerReadyReq? || ev.StartCountdownReq? || ev.CorrectAnswerReq?
             || ev.CompleteGameReq? || ev.ResetGameReq? || ev.LeaveRoomReq?
    requires ev.code !in st.sessions
    ensures Handle(st, conn, ev, store) == Step(st, [])
  {
  }
}

/** Walk-throughs of whole games against the server handlers. */
module ServerScenarios {
  import opened Wrappers
  import opened ServerState
  import opened Server
  import opened ServerProps

  /** A user who joined from a connection whose id is not the user id is
      never found by `correctAnswer`, which matches on the connection id: the
      answer is silently dropped. */
  lemma AnswerFromOtherConnectionIsDropped(st: State, conn: string, code: string,
                                           userId: string, username: string, q: int)
    requires OpenRoom(st, code) && code !in st.sessions
    requires conn != userId
    ensures var joined := JoinRoom(st, conn, code, userId, username, Available).state;
            CorrectAnswer(joined, code, conn, q) == Step(joined, [])
  {
    var joined := JoinRoom(st, conn, code, userId, username, Available).state;
    assert joined.sessions[code].players == [NewPlayer(userId, username)];
  }

  /** Creating a room and joining two users gives a roster of the two, in
      join order, neither ready. */
  lemma TwoJoin(code: string, p1: string, p2: string)
    requires code != "" && p1 != p2
    ensures var s0 := CreateRoom(InitialState(), code, Available).state;
            var s1 := JoinRoom(s0, p1, code, p1, "one", Available).state;
            var s2 := JoinRoom(s1, p2, code, p2, "two", Available).state;
            code in s2.sessions && s2.sessions[code].players == [NewPlayer(p1, "one"), NewPlayer(p2, "two")]
  {
    var s0 := CreateRoom(InitialState(), code, Available).state;
    var s1 := JoinRoom(s0, p1, code, p1, "one", Available).state;
    assert s1.sessions[code].players == [NewPlayer(p1, "one")];
    assert FindIndex(s1.sessions[code].players, p2) == -1;
  }

  /** With two players in the lobby, the first ready starts nothing and the
      second starts the game. */
  lemma ReadyBoth(st: State, code: string, a: SessionPlayer, b: SessionPlayer)
    requires code in st.sessions && st.sessions[code].players == [a, b] && a.id != b.id
    requires !a.isReady && !b.isReady
    ensures var r1 := PlayerReadyUp(st, code, a.id);
            var r2 := PlayerReadyUp(r1.state, code, b.id);
            && Message(Everyone, GameStart) !in r1.out
            && Message(Everyone, GameStart) in r2.out
            && r2.state.sessions[code].players == [a.(isReady := true), b.(isReady := true)]
  {
    var r1 := PlayerReadyUp(st, code, a.id);
    assert FindIndex([a, b], a.id) == 0;
    var ps := r1.state.sessions[code].players;
    assert ps == [a.(isReady := true), b];
    assert !ps[1].isReady;
    assert FindIndex(ps, b.id) == 1;
    var ps' := PlayerReadyUp(r1.state, code, b.id).state.sessions[code].players;
    assert ps' == [a.(isReady := true), b.(isReady := true)];
    assert AllReady(ps');
  }

  /** With two players, the first completion sends nothing and the second
      sends `gameEnd`. */
  lemma CompleteBoth(st: State, code: string, a: SessionPlayer, b: SessionPlayer, ta: int, tb: int)
    requires code in st.sessions && st.sessions[code].players == [a, b] && a.id != b.id
    requires !HasCompleted(b) && ta != 0 && tb != 0
    ensures var c1 := CompleteGame(st, code, a.id, ta, Available);
            var c2 := CompleteGame(c1.state, code, b.id, tb, Available);
            && c1.out == []
            && c2.out == [Message(Everyone, GameEnd(c2.state.sessions[code].players))]
  {
    assert FindIndex([a, b], a.id) == 0;
    NoGameEndWhileSomeoneRuns(st, code, a.id, ta, Available, 1);
    var c1 := CompleteGame(st, code, a.id, ta, Available);
    var ps := c1.state.sessions[code].players;
    assert ps == [a.(completionTime := Some(ta)), b];
    assert FindIndex(ps, b.id) == 1;
    GameEndOnLastCompletion(c1.state, code, b.id, tb);
  }

  /** The lobby of a whole game from an empty server: a room is created, two
      users join (each from a connection whose id is their user id), both
      ready up and the countdown starts. */
  lemma GameLobby(code: string, p1: string, p2: string)
    requires code != "" && p1 != p2
    ensures var s0 := CreateRoom(InitialState(), code, Available).state;
            var s1 := JoinRoom(s0, p1, code, p1, "one", Available).state;
            var s2 := JoinRoom(s1, p2, code, p2, "two", Available).state;
            var s3 := PlayerReadyUp(s2, code, p1).state;
            var s4 := PlayerReadyUp(s3, code, p2).state;
            var s5 := StartCountdown(s4, code).state;
            && code in s5.sessions
            && s5.sessions[code].players == [NewPlayer(p1, "one").(isReady := true),
                                             NewPlayer(p2, "two").(isReady := true)]
            && p1 in s5.stats && s5.stats[p1] == PlayerRecord("one", 0, 0, None)
  {
    var s0 := CreateRoom(InitialState(), code, Available).state;
    var s1 := JoinRoom(s0, p1, code, p1, "one", Available).state;
    var s2 := JoinRoom(s1, p2, code, p2, "two", Available).state;
    TwoJoin(code, p1, p2);
    assert s1.stats[p1] == PlayerRecord("one", 0, 0, None);
    assert s2.stats[p1] == s1.stats[p1];
    ReadyBoth(s2, code, NewPlayer(p1, "one"), NewPlayer(p2, "two"));
  }

  /** The play of a two-player game: the first player answers one riddle,
      then both finish. The second completion ends the game with the final
      roster, and the first player's record shows one game, the 100 points
      as high score, and their time. */
  lemma GamePlay(st: State, code: string, a: SessionPlayer, b: SessionPlayer, t1: int, t2: int)
    requires code in st.sessions && st.sessions[code].players == [a, b] && a.id != b.id
    requires a.score == 0 && !HasCompleted(b) && t1 > 0 && t2 > 0
    requires a.id in st.stats && st.stats[a.id] == PlayerRecord(a.username, 0, 0, None)
    ensures var s6 := CorrectAnswer(st, code, a.id, 0).state;
            var s7 := CompleteGame(s6, code, a.id, t1, Available).state;
            var last := CompleteGame(s7, code, b.id, t2, Available);
            && last.out == [Message(Everyone, GameEnd([a.(score := 100, completionTime := Some(t1)),
                                                      b.(completionTime := Some(t2))]))]
            && last.state.stats[a.id].gamesCompleted == 1
            && last.state.stats[a.id].highScore == 100
            && last.state.stats[a.id].fastestTime == Some(t1)
  {
    assert FindIndex(st.sessions[code].players, a.id) == 0;
    var s6 := CorrectAnswer(st, code, a.id, 0).state;
    var a' := a.(score := 100);
    assert s6.sessions[code].players == [a', b];
    assert s6.stats == st.stats;
    CompleteBoth(s6, code, a', b, t1, t2);
    assert FindIndex(s6.sessions[code].players, a.id) == 0;
    var s7 := CompleteGame(s6, code, a.id, t1, Available).state;
    assert s7.sessions[code].players == [a'.(completionTime := Some(t1)), b];
    assert s7.stats[a.id] == RecordCompletion(st.stats[a.id], 100, t1);
    assert FindIndex(s7.sessions[code].players, b.id) == 1;
    var last := CompleteGame(s7, code, b.id, t2, Available);
    assert last.state.sessions[code].players
           == [a'.(completionTime := Some(t1)), b.(completionTime := Some(t2))];
    assert last.state.stats[a.id] == s7.stats[a.id];
  }

  /** A whole game from an empty server: the lobby, then the play. */
  lemma WholeGame(code: string, p1: string, p2: string, t1: int, t2: int)
    requires code != "" && p1 != p2 && t1 > 0 && t2 > 0
    ensures var s0 := CreateRoom(InitialState(), code, Available).state;
            var s1 := JoinRoom(s0, p1, code, p1, "one", Available).state;
            var s2 := JoinRoom(s1, p2, code, p2, "two", Available).state;
            var s3 := PlayerReadyUp(s2, code, p1).state;
            var s4 := PlayerReadyUp(s3, code, p2).state;
            var s5 := StartCountdown(s4, code).state;
            var s6 := CorrectAnswer(s5, code, p1, 0).state;
            var s7 := CompleteGame(s6, code, p1, t1, Available).state;
            var last := CompleteGame(s7, code, p2, t2, Available);
            && last.out == [Message(Everyone, GameEnd([SessionPlayer(p1, "one", true, 100, Some(t1)),
                                                      SessionPlayer(p2, "two", true, 0, Some(t2))]))]
            && last.state.stats[p1].gamesCompleted == 1
            && last.state.stats[p1].highScore == 100
            && last.state.stats[p1].fastestTime == Some(t1)
  {
    GameLobby(code, p1, p2);
    var s0 := CreateRoom(InitialState(), code, Available).state;
    var s1 := JoinRoom(s0, p1, code, p1, "one", Available).state;
    var s2 := JoinRoom(s1, p2, code, p2, "two", Available).state;
    var s5 := StartCountdown(PlayerReadyUp(PlayerReadyUp(s2, code, p1).state, code, p2).state, code).state;
    GamePlay(s5, code, NewPlayer(p1, "one").(isReady := true), NewPlayer(p2, "two").(isReady := true), t1, t2);
  }
}

=== FILE: server_state.dfy ===
/** The state the game server keeps (server/server.js): the registry of live
    sessions (`activeRooms`), the two durable collections reduced to tables,
    and the room each connection last joined (`socket.roomCode`). */
module ServerState {
  import opened Wrappers

  /** An entry of a live roster. `completionTime` is `None` until the player
      reports one, and again after a reset. */
  datatype SessionPlayer = SessionPlayer(
    id: string,
    username: string,
    isReady: bool,
    score: int,
    completionTime: Option<int>)

  /** A live session: the roster in join order and two game fields. */
  datatype Session = Session(players: seq<SessionPlayer>, isGameActive: bool, currentQuestionIndex: nat)

  /** A durable room: whether it is open, and every user id that ever joined
      it, in first-join order. */
  datatype RoomRecord = RoomRecord(isActive: bool, members: seq<string>)

  /** A durable player's statistics. `fastestTime` is `None` for `null`. */
  datatype PlayerRecord = PlayerRecord(
    username: string,
    highScore: int,
    gamesCompleted: int,
    fastestTime: Option<int>)

  datatype State = State(
    sessions: map<string, Session>,    // live sessions by room code
    rooms: map<string, RoomRecord>,    // durable rooms by code (a unique index)
    stats: map<string, PlayerRecord>,  // durable players by user id
    bound: map<string, string>)        // room code by connection id

  /** Who receives an outbound event: the calling connection only, everyone
      in the room but the caller, or everyone in the room. */
  datatype Audience = Sender | Others | Everyone

  datatype Event =
    | RoomCreated(code: string)
    | PlayerJoined(player: SessionPlayer)
    | RoomState(session: Session)
    | PlayerReady(playerId: string)
    | GameStart
    | UpdateScores(players: seq<SessionPlayer>)
    | GameEnd(players: seq<SessionPlayer>)
    | GameReset(session: Session)
    | PlayerLeft(playerId: string)
    | Error(message: string)

  datatype Message = Message(to: Audience, event: Event)

  /** The result of handling one inbound event. */
  datatype Step = Step(state: State, out: seq<Message>)

  /** Whether the durable store answers or throws. */
  datatype Store = Available | Failing

  const PointsPerCorrectAnswer: int := 100

  function InitialState(): State {
    State(map[], map[], map[], map[])
  }

  function EmptySession(): Session {
    Session([], false, 0)
  }

  /** The entry `joinRoom` appends for a new user. */
  function NewPlayer(id: string, username: string): SessionPlayer {
    SessionPlayer(id, username, false, 0, None)
  }

  /** `players.findIndex(p => p.id === id)`: the first position holding the
      id, or -1. */
  function FindIndex(ps: seq<SessionPlayer>, id: string): (i: int)
    ensures -1 <= i < |ps|
    ensures i >= 0 ==> ps[i].id == id && forall j :: 0 <= j < i ==> ps[j].id != id
    ensures i == -1 <==> forall j :: 0 <= j < |ps| ==> ps[j].id != id
  {
    if |ps| == 0 then -1
    else if ps[0].id == id then 0
    else
      var k := FindIndex(ps[1..], id);
      if k == -1 then -1 else k + 1
  }

  /** JavaScript truthiness of `completionTime`: present and not 0. */
  predicate HasCompleted(p: SessionPlayer) {
    p.completionTime.Some? && p.completionTime.value != 0
  }

  predicate AllReady(ps: seq<SessionPlayer>) {
    forall i :: 0 <= i < |ps| ==> ps[i].isReady
  }

  predicate AllCompleted(ps: seq<SessionPlayer>) {
    forall i :: 0 <= i < |ps| ==> HasCompleted(ps[i])
  }

  predicate UniqueIds(ps: seq<SessionPlayer>) {
    forall i, j :: 0 <= i < j < |ps| ==> ps[i].id != ps[j].id
  }

  /** `players.filter(p => p.id !== id)`: every entry with another id, in
      the same order. */
  function RemoveId(ps: seq<SessionPlayer>, id: string): (r: seq<SessionPlayer>)
    ensures |r| <= |ps|
    ensures forall i :: 0 <= i < |r| ==> r[i].id != id
    ensures forall p :: p in r <==> p in ps && p.id != id
    ensures (forall j :: 0 <= j < |ps| ==> ps[j].id != id) ==> r == ps
    ensures (forall j :: 0 <= j < |ps| ==> ps[j].id == id) ==> r == []
  {
    if |ps| == 0 then []
    else
      var rest := RemoveId(ps[1..], id);
      assert forall p :: p in ps <==> p == ps[0] || p in ps[1..];
      if ps[0].id == id then rest else [ps[0]] + rest
  }

  /** The registry invariant: every live session belongs to an open durable
      room, and no user id appears twice in a roster. */
  ghost predicate Valid(st: State) {
    forall code :: code in st.sessions ==>
      && code in st.rooms
      && st.rooms[code].isActive
      && UniqueIds(st.sessions[code].players)
  }
}

=== FILE: text.dfy ===
/** String helpers used by the client: the decimal rendering of
    `Number.prototype.toString` on naturals, `String.prototype.padStart`,
    `trim` and an ASCII `toLowerCase`. Strings are `seq<char>`. */
module Text {

  // ---------------------------------------------------------------------------
  // Decimal digits
  // ---------------------------------------------------------------------------

  predicate IsDigit(c: char) {
    '0' <= c <= '9'
  }

  predicate IsDigits(s: string) {
    forall i :: 0 <= i < |s| ==> IsDigit(s[i])
  }

  function DigitChar(d: nat): (c: char)
    requires d < 10
    ensures IsDigit(c)
    ensures DigitValue(c) == d
  {
    ('0' as int + d) as char
  }

  function DigitValue(c: char): nat
    requires IsDigit(c)
  {
    c as int - '0' as int
  }

  /** Reads a string of decimal digits, most significant first. Leading
      zeros are accepted, and the empty string reads as 0. */
  function ParseDecimal(s: string): nat
    requires IsDigits(s)
  {
    if |s| == 0 then 0
    else ParseDecimal(s[..|s| - 1]) * 10 + DigitValue(s[|s| - 1])
  }

  /** `n.toString()` for a natural number: the shortest decimal rendering. */
  function DecimalString(n: nat): (r: string)
    ensures 1 <= |r|
    ensures IsDigits(r)
    ensures ParseDecimal(r) == n
    ensures r[0] == '0' ==> n == 0
    ensures |r| == 1 <==> n < 10
    ensures |r| <= 2 <==> n < 100
    decreases n
  {
    if n < 10 then [DigitChar(n)]
    else
      var r := DecimalString(n / 10) + [DigitChar(n % 10)];
      assert r[..|r| - 1] == DecimalString(n / 10);
      r
  }

  // ---------------------------------------------------------------------------
  // padStart
  // ---------------------------------------------------------------------------

  function Repeat(c: char, n: nat): (r: string)
    ensures |r| == n
    ensures forall i :: 0 <= i < n ==> r[i] == c
  {
    if n == 0 then [] else [c] + Repeat(c, n - 1)
  }

  /** `s.padStart(width, fill)` with a one-character fill: the fill is put in
      front until the result is `width` long; a string already that long is
      returned as it is. */
  function PadStart(s: string, width: nat, fill: char): (r: string)
    ensures |r| == if |s| < width then width else |s|
    ensures r[|r| - |s|..] == s
    ensures forall i :: 0 <= i < |r| - |s| ==> r[i] == fill
  {
    if |s| < width then Repeat(fill, width - |s|) + s else s
  }

  lemma {:induction false} ZerosReadAsZero(z: string)
    requires forall i :: 0 <= i < |z| ==> z[i] == '0'
    ensures IsDigits(z) && ParseDecimal(z) == 0
  {
    if |z| > 0 {
      ZerosReadAsZero(z[..|z| - 1]);
    }
  }

  /** Leading zeros do not change the value read. */
  lemma {:induction false} LeadingZerosIgnored(z: string, s: string)
    requires forall i :: 0 <= i < |z| ==> z[i] == '0'
    requires IsDigits(s)
    ensures IsDigits(z + s)
    ensures ParseDecimal(z + s) == ParseDecimal(s)
    decreases |s|
  {
    ZerosReadAsZero(z);
    if |s| == 0 {
      assert z + s == z;
    } else {
      var t := z + s;
      assert t[..|t| - 1] == z + s[..|s| - 1];
      LeadingZerosIgnored(z, s[..|s| - 1]);
    }
  }

  /** A zero-padded decimal rendering still reads back as the number. */
  lemma PaddedDecimalReadsBack(n: nat, width: nat)
    ensures IsDigits(PadStart(DecimalString(n), width, '0'))
    ensures ParseDecimal(PadStart(DecimalString(n), width, '0')) == n
  {
    var d := DecimalString(n);
    if |d| < width {
      LeadingZerosIgnored(Repeat('0', width - |d|), d);
    }
  }

  // ---------------------------------------------------------------------------
  // trim and toLowerCase
  // ---------------------------------------------------------------------------

  /** The characters `String.prototype.trim` strips: the ECMAScript
      WhiteSpace and LineTerminator code points. */
  predicate IsSpace(c: char) {
    || c == ' ' || c == '\t' || c == '\n' || c == '\r'
    || c == '\U{000B}' || c == '\U{000C}'
    || c == '\U{00A0}' || c == '\U{1680}'
    || ('\U{2000}' <= c <= '\U{200A}')
    || c == '\U{2028}' || c == '\U{2029}'
    || c == '\U{202F}' || c == '\U{205F}' || c == '\U{3000}' || c == '\U{FEFF}'
  }

  predicate AllSpace(s: string) {
    forall i :: 0 <= i < |s| ==> IsSpace(s[i])
  }

  /** Neither end of `s` is a space. */
  predicate Trimmed(s: string) {
    |s| == 0 || (!IsSpace(s[0]) && !IsSpace(s[|s| - 1]))
  }

  /** Drops the leading spaces: the result is the suffix of `s` that starts at
      its first non-space character. */
  function TrimStart(s: string): (r: string)
    ensures |r| <= |s|
    ensures r == s[|s| - |r|..]
    ensures AllSpace(s[..|s| - |r|])
    ensures |r| == 0 || !IsSpace(r[0])
  {
    if |s| > 0 && IsSpace(s[0]) then TrimStart(s[1..]) else s
  }

  /** Drops the trailing spaces: the result is the prefix of `s` that ends at
      its last non-space character. */
  function TrimEnd(s: string): (r: string)
    ensures |r| <= |s|
    ensures r == s[..|r|]
    ensures AllSpace(s[|r|..])
    ensures |r| == 0 || !IsSpace(r[|r| - 1])
  {
    if |s| > 0 && IsSpace(s[|s| - 1]) then TrimEnd(s[..|s| - 1]) else s
  }

  /** `s.trim()`: a slice of `s` with no space at either end. */
  function Trim(s: string): (r: string)
    ensures Trimmed(r)
    ensures |r| <= |TrimStart(s)| <= |s|
    ensures r == s[|s| - |TrimStart(s)|..][..|r|]
  {
    var t := TrimStart(s);
    var r := TrimEnd(t);
    assert |r| > 0 ==> r[0] == t[0];
    r
  }

  /** Trimming is determined by the split into spaces, a core with no space
      at either end, and spaces: whatever `s` is made of, `Trim` finds that
      core. */
  lemma {:induction false} TrimFindsCore(pre: string, core: string, post: string)
    requires AllSpace(pre) && AllSpace(post) && Trimmed(core)
    ensures Trim(pre + core + post) == core
  {
    var s := pre + core + post;
    if |core| == 0 {
      var sp := pre + post;
      assert AllSpace(sp);
      assert s == sp + [];
      TrimStartOfSpaces(sp, []);
    } else {
      assert s == pre + (core + post);
      TrimStartOfSpaces(pre, core + post);
      TrimEndOfSpaces(core, post);
    }
  }

  lemma {:induction false} TrimStartOfSpaces(pre: string, rest: string)
    requires AllSpace(pre)
    requires |rest| == 0 || !IsSpace(rest[0])
    ensures TrimStart(pre + rest) == rest
    decreases |pre|
  {
    if |pre| > 0 {
      assert (pre + rest)[1..] == pre[1..] + rest;
      TrimStartOfSpaces(pre[1..], rest);
    } else {
      assert pre + rest == rest;
    }
  }

  lemma {:induction false} TrimEndOfSpaces(core: string, post: string)
    requires AllSpace(post)
    requires |core| == 0 || !IsSpace(core[|core| - 1])
    ensures TrimEnd(core + post) == core
    decreases |post|
  {
    if |post| > 0 {
      var s := core + post;
      assert s[..|s| - 1] == core + post[..|post| - 1];
      TrimEndOfSpaces(core, post[..|post| - 1]);
    } else {
      assert core + post == core;
    }
  }

  predicate IsUpper(c: char) {
    'A' <= c <= 'Z'
  }

  /** `toLowerCase` on one character, for the ASCII letters. */
  function LowerChar(c: char): (r: char)
    ensures !IsUpper(r)
    ensures IsUpper(c) ==> r as int == c as int + 32
    ensures !IsUpper(c) ==> r == c
  {
    if IsUpper(c) then (c as int + 32) as char else c
  }

  /** `s.toLowerCase()`, restricted to ASCII letters. */
  function ToLower(s: string): (r: string)
    ensures |r| == |s|
    ensures forall i :: 0 <= i < |r| ==> !IsUpper(r[i])
    ensures forall i :: 0 <= i < |r| ==> r[i] == LowerChar(s[i])
  {
    seq(|s|, i requires 0 <= i < |s| => LowerChar(s[i]))
  }

  /** `toLowerCase` works character by character, so it distributes over
      concatenation. */
  lemma LowerConcat(a: string, b: string)
    ensures ToLower(a + b) == ToLower(a) + ToLower(b)
  {
    var l, r := ToLower(a + b), ToLower(a) + ToLower(b);
    forall i | 0 <= i < |l|
      ensures l[i] == r[i]
    {
      if i < |a| {
        assert (a + b)[i] == a[i];
      } else {
        assert (a + b)[i] == b[i - |a|];
      }
    }
  }

  /** Spaces are not letters: lower-casing leaves them alone. */
  lemma LowerKeepsSpaces(s: string)
    requires AllSpace(s)
    ensures ToLower(s) == s
  {
    forall i | 0 <= i < |s|
      ensures ToLower(s)[i] == s[i]
    {
      assert IsSpace(s[i]);
    }
  }

  /** Lower-casing never makes a space out of a non-space. */
  lemma LowerKeepsNonSpace(c: char)
    requires !IsSpace(c)
    ensures !IsSpace(LowerChar(c))
  {
  }
}

=== FILE: wrappers.dfy ===
/** The optional-value type shared by the client and server models: a
    JavaScript `undefined`/`null` is `None`. */
module Wrappers {

  datatype Option<+T> = None | Some(value: T)
}
